=== FILE: README.md ===
# Microblog back end: services, schemas and image paths

A model of the service layer of a small Twitter-like back end (FastAPI over
SQLAlchemy). The relational schema (`users`, `user_to_user`, `tweets`,
`likes`, `images`) becomes one immutable value, `Models.Tables`, with an
invariant `Models.Valid`: keys and foreign keys hold, usernames are unique,
nobody follows themself, tweet text fits `String(280)`, a bound image
points at an existing tweet, and there is at most one like per
(user, tweet). Autoincrement keys are counters in `Tables`, so ids are
never reused.

Every service operation is a function from the tables to a `Result` —
of new tables, or of the tables together with a new id (`Media.SaveImage`);
`Tweets.CreateTweet`, which raises no status of its own, returns the tables and the new id
directly. `Err(e)` carries the HTTP status the service raises
(404 `NotFound`, 422 `Invalid`, 423 `Locked`, 500 `InternalError`), and
`Models.Commit` applies a result as one transaction, so a refused call
changes nothing. Those functions state the checks in the order the service
runs them and the exact rows each operation adds or removes; lemmas prove
that each keeps `Valid`, that follow/unfollow and like/dislike undo each
other, and that repeating them is refused.

`Storage.Store` holds the same tables as mutable fields. Its methods are the
service entry points: they run the checks, update the fields in place
and are proved to end in the state the pure function describes, keeping
the invariant. `Store.UpdateImages` binds images one listed id at a time
in a loop that is proved equal to the bulk `UPDATE`.

Queries (`get_tweet`, `check_follower`, `check_like_tweet`, `get_images`,
`get_tweets`, `get_user_for_id`) are functions on the tables. Result lists
are built by scanning ids below the autoincrement counter, so they come in
id order; `get_tweets` then sorts newest first, with an insertion sort
proved to produce a permutation.

The schema validators (`check_len_tweet_data`, `extract_user`,
`serialize_images`) and the path arithmetic of the image helpers
(`allowed_image`, `clear_path`, the directory layout of `save_image`,
the files and folder of `delete_images`) are pure functions over strings,
with `os.path.join` modelled by its POSIX rules.

Modules: `Common` (option, result, errors), `Seqs` (ordered id scans),
`Models`, `FollowLedger`, `LikeLedger`, `ImagePaths`, `Media`, `Tweets`,
`Schemas`, `Feed` (feed query and rendering), `Storage` (the `Store` class).

## Model

| member | source | states |
|---|---|---|
| Models.Valid | src/models/models.py:8-107 | the invariant every service call keeps. From the schema: usernames are unique (`unique=True`); both ends of a follow edge are existing users; every tweet has an existing owner, at most 280 characters and an id below the tweet counter; every like has a unique id below the like counter and an existing user and tweet; every image has an id below the image counter, and a bound image points at an existing tweet. From the service checks only: nobody follows themself (services.py:39-48), and there is at most one like per (user, tweet) (services.py:380-388) |
| Models.Followers | src/models/models.py:98-105 | `followers` is the backref of `following`: `v` is a follower of `u` exactly when `u` is in `v`'s following set |
| Models.Following | src/models/models.py:98-105 | `following` holds exactly the users `v` for which a `user_to_user` row (u, v) exists |
| Models.CheckUserForId | src/services/services.py:502-512 | true exactly when the current user's id is the requested id |
| Models.GetUserForId | src/services/services.py:481-500 | a user view exists iff the id exists; it carries the id, the username, `following` (exactly the users it follows) and `followers` (exactly the users that follow it), and, in valid tables, never the user itself in either |
| Models.GetTweet | src/services/services.py:269-282 | the tweet with this primary key, or none exactly when no such row exists |
| Models.DeleteUser | src/models/models.py:90-96 | deleting a user removes the user, every tweet they own, every like they gave or that was on one of their tweets, every follow edge touching them, and every image bound to one of their tweets; every surviving user, tweet and image row is unchanged, and so are the id counters |
| Models.DeleteUserKeepsValid | src/models/models.py:90-96 | the cascading delete keeps every key, foreign key and uniqueness rule |
| FollowLedger.Follow | src/services/services.py:24-79 | self-follow gives 422; otherwise an unknown target gives 404; otherwise an existing edge gives 423; success exactly when all pass, adding only the edge (current, target) |
| FollowLedger.Unfollow | src/services/services.py:98-153 | the same checks in the same order, with 423 when the edge is absent; success removes exactly that edge |
| FollowLedger.FollowIsVisibleBothWays | src/models/models.py:98-105 | after a follow, the target joins the actor's `following` and the actor joins the target's `followers`, and nothing else joins |
| FollowLedger.FollowKeepsValid | src/services/services.py:39-79 | a successful follow keeps the invariant, in particular no self-edge |
| FollowLedger.UnfollowKeepsValid | src/services/services.py:113-153 | a successful unfollow keeps the invariant |
| FollowLedger.FollowThenUnfollow | src/services/services.py:24-153 | unfollowing right after a follow succeeds and restores the tables exactly |
| FollowLedger.UnfollowThenFollow | src/services/services.py:24-153 | following right after an unfollow succeeds and restores the tables exactly |
| FollowLedger.CheckFollower | src/services/services.py:84-95 | true exactly when the follow edge (current user, target) exists |
| FollowLedger.FollowTwiceIsLocked | src/services/services.py:64-72 | repeating a successful follow gives 423, the edge present once |
| LikeLedger.CheckLikeTweet | src/services/services.py:396-412 | the like row of (user, tweet) or none, none exactly when the user has not liked the tweet |
| LikeLedger.LikeTweet | src/services/services.py:359-393 | unknown tweet gives 404; an existing like gives 423; otherwise exactly one new row with the next id is added, no ownership check |
| LikeLedger.Dislike | src/services/services.py:415-450 | unknown tweet gives 404; no like gives 423; otherwise exactly the one row of (user, tweet) is removed |
| LikeLedger.LikeKeepsValid | src/services/services.py:380-393 | a like keeps the invariant, in particular at most one like per (user, tweet) without a unique constraint |
| LikeLedger.DislikeKeepsValid | src/services/services.py:436-450 | a dislike keeps the invariant |
| LikeLedger.LikeThenDislike | src/services/services.py:359-450 | a dislike after a like restores the likes table; only the id counter moved |
| LikeLedger.LikeTwiceIsLocked | src/services/services.py:380-388 | a second like of the same tweet by the same user gives 423 |
| LikeLedger.DislikeTwiceIsLocked | src/services/services.py:440-446 | a second dislike gives 423 |
| Media.SaveImage | src/services/image.py:19-33 | a failed upload stores nothing and passes its error on; otherwise one new unbound image with the upload's path and the next id, all else unchanged |
| Media.UpdateImages | src/services/image.py:36-53 | every existing listed image is bound to the tweet whatever it was bound to; unlisted images are unchanged; unknown ids add nothing |
| Media.UpdateImagesKeepsValid | src/models/models.py:31-32 | binding images to an existing tweet keeps the invariant: the `tweet_id` foreign key has a target |
| Media.GetImages | src/services/image.py:56-69 | exactly the ids of the images bound to the tweet, each an existing row, in increasing id order |
| Media.DeleteImages | src/services/image.py:72-86 | nothing is removed or pruned exactly when the tweet has no image; otherwise one file per bound image, the i-th being `static/<path>` of the i-th bound image in the order `Media.GetImages` lists them |
| Media.DeleteImagesRemovesBoundFiles | src/utils/image.py:102-108 | the removed files are exactly `static/<path>` of the images bound to the tweet |
| Media.DeleteImagesPrunesFirstFolder | src/utils/image.py:98-100 | the folder checked for pruning is that of the bound image with the smallest id |
| Media.SaveImageLeavesTweetsAlone | src/services/image.py:28-33 | saving an image changes no tweet's image list |
| Media.SaveImageKeepsValid | src/services/image.py:28-33 | saving an image keeps the invariant |
| Tweets.CreateTweet | src/services/services.py:285-313 | the new tweet takes the next id, the acting user as owner and the given time; listed images are bound to it only for a non-empty list; nothing else changes |
| Tweets.CreateTweetKeepsValid | src/services/services.py:298-311 | a tweet by an existing user with accepted text keeps the invariant |
| Tweets.CreateTweetClaimsListedImages | src/services/services.py:303-309 | the new tweet's images are exactly the listed existing ones; other tweets lose exactly their listed images |
| Tweets.DeleteTweet | src/services/services.py:316-350 | unknown tweet gives 404; someone else's gives 423; otherwise the tweet, its likes and its images go and nothing else changes |
| Tweets.DeleteTweetKeepsValid | src/models/tweets.py:25-30 | the delete-orphan cascade leaves no like or image pointing at the deleted tweet |
| Tweets.CreateThenDelete | src/services/services.py:285-350 | the author can delete a tweet just posted without images, restoring the tables except the tweet counter |
| Tweets.DeleteOthersTweetChangesNothing | src/services/services.py:338-344 | deleting someone else's tweet leaves the tables as they were |
| Feed.Insert | src/services/services.py:260 | inserting into a newest-first list keeps it newest first and adds exactly one occurrence |
| Feed.SortNewestFirst | src/services/services.py:260 | the result is a permutation of the input ordered by non-increasing creation time |
| Feed.GetTweets | src/services/services.py:243-266 | exactly the tweets whose owner the user follows, each once, newest first |
| Feed.EmptyFeedWithoutFollowing | src/services/services.py:252-254 | following nobody gives an empty feed |
| Feed.DeletedTweetLeavesFeeds | src/services/services.py:252-264 | a deleted tweet is in no feed |
| Feed.NewTweetReachesFollowers | src/services/services.py:252-264 | a new tweet is in a reader's feed exactly when the reader follows its author |
| Feed.RenderLikes | src/schemas/schemas.py:34-54 | a user is listed among a tweet's likes exactly when they liked it, with their id and username |
| Feed.RenderTweet | src/schemas/schemas.py:133-157 | a rendered tweet carries its id, text, its author's id and name, and the likers |
| Feed.RenderedAttachments | src/schemas/schemas.py:144-152 | the attachments are the paths of the tweet's images, in id order |
| Feed.RenderFeed | src/schemas/schemas.py:160-165 | one entry per tweet of the feed, newest first, no tweet twice; each entry is a followed user's tweet rendered in full by `RenderTweet` with its own text, and every such tweet appears |
| Schemas.CheckLenTweetData | src/schemas/schemas.py:98-112 | text passes unchanged exactly when it has at most 280 characters; otherwise 422 |
| Schemas.CheckLenTweetDataBoundary | src/schemas/schemas.py:104 | 280 characters pass, 281 are refused |
| Schemas.ExtractUser | src/schemas/schemas.py:47-54 | a like renders as the id and username of the user who gave it |
| Schemas.SerializeImages | src/schemas/schemas.py:144-152 | a list becomes the list of its paths, same length and order; any other value passes unchanged |
| ImagePaths.Lower | src/utils/image.py:24 | lowering keeps the length and lowers each character |
| ImagePaths.RSplitOnce | src/utils/image.py:24 | `rsplit(c, 1)`: one piece without the separator, otherwise two pieces around its last occurrence |
| ImagePaths.AllowedImage | src/utils/image.py:16-33 | a name passes exactly when it has a dot and its last suffix, lowered, is one of png, jpg, jpeg, gif; otherwise 422 |
| ImagePaths.AllowedImageByLastDot | src/utils/image.py:24 | the verdict depends only on the text after the last dot, lowered |
| ImagePaths.AllowedImageIgnoresCase | src/utils/image.py:24 | "a.JPG" passes |
| ImagePaths.AllowedImageLooksAtLastSuffix | src/utils/image.py:24 | "x.exe.png" passes |
| ImagePaths.AllowedImageRejectsHiddenSuffix | src/utils/image.py:24 | "a.png.exe" is refused |
| ImagePaths.AllowedImageNeedsSuffix | src/utils/image.py:24 | "noext" is refused |
| ImagePaths.ClearPath | src/utils/image.py:36-42 | as written: no result exactly when "static" does not occur (the `IndexError`) |
| ImagePaths.ClearPathSingleOccurrence | src/utils/image.py:42 | with one occurrence of "static", the result is what follows it, minus one character |
| ImagePaths.ClearPathUnderStaticFolder | src/utils/image.py:42 | a path under `nginx/static/` whose rest has no "static" clears to that rest |
| ImagePaths.ClearPathUnderUploadDir | src/utils/image.py:42 | as written, a path `nginx/static/<dir>/<name>` whose directory holds no 'c' clears to `<dir>/` followed by the name up to its first "static" |
| ImagePaths.BeforeStatic | src/utils/image.py:42 | the name up to its first "static": a prefix of it, all of it exactly when "static" does not occur, otherwise ending where the first "static" starts |
| ImagePaths.ClearPathFixed | src/utils/image.py:42 | corrected: no result exactly when "static" does not occur |
| ImagePaths.ClearPathFixedUnderStaticFolder | src/utils/image.py:42 | corrected: every path under `nginx/static/` clears to the rest, whatever it contains |
| ImagePaths.StaticFolders | src/config.py:10-11 | the static folder is `nginx/static` and the images folder `nginx/static/images` |
| ImagePaths.UploadDir | src/utils/image.py:63-76 | the directory written to is `nginx/static/` followed by `UploadSubdir` |
| ImagePaths.UploadSubdir | src/utils/image.py:63-76 | exactly `images/avatars` for an avatar and `images/tweets/<year>/<month>/<day>` otherwise; no trailing slash, no backslash |
| ImagePaths.Decimal | src/utils/image.py:73-75 | `f"{n}"` is a non-empty string of decimal digits, starting with 0 only for zero |
| ImagePaths.DecimalRoundTrip | src/utils/image.py:73-75 | reading the digits back gives the number |
| ImagePaths.JoinParts | src/utils/image.py:82 | `os.path.join`: an absolute second part replaces the first; otherwise the first part stays in front and the second at the end, with at most one separator between |
| ImagePaths.WrittenFileLayout | src/utils/image.py:82 | a relative file name is written at the upload directory, a slash and the name |
| ImagePaths.SaveImagePath | src/utils/image.py:53-87 | corrected: a refused extension gives 422; a success implies an allowed extension |
| ImagePaths.SaveImagePathLayout | src/utils/image.py:82-87 | corrected: every allowed relative file name is stored as the upload directory below the static folder, a slash and the name |
| ImagePaths.SaveImagePathAsWritten | src/utils/image.py:53-87 | as written: a refused extension gives 422; a success implies an allowed extension |
| ImagePaths.SaveImagePathAsWrittenLayout | src/utils/image.py:82-87 | as written: an allowed relative file name is stored as the upload directory below the static folder, a slash and the name up to its first "static" |
| ImagePaths.SaveImagePathsAgreeWithoutStatic | src/utils/image.py:82-87 | for a file name without "static", the program as written stores the same path as the corrected one |
| ImagePaths.StaticPngIsAllowed | src/utils/image.py:24 | "static.png" passes the extension check and starts with "static" |
| ImagePaths.SaveImageAsWrittenLosesFileName | src/utils/image.py:82-87 | as written, uploading an allowed file whose name starts with "static" (such as "static.png") stores the upload directory followed by a slash, without the file name |
| ImagePaths.PruneFolder | src/utils/image.py:98-100 | `static` joined with the first path cut at its last `/` (the whole path when it has none), and that cut again at its last backslash when one remains |
| ImagePaths.PruneFolderCutsAtBackslash | src/utils/image.py:98-100 | the first path `a\b/c` prunes `static/a`: the backslash cut applies to what precedes the last `/` |
| ImagePaths.RemovedFile | src/utils/image.py:104 | `static/<path>`, or the path itself when it is absolute |
| ImagePaths.PruneFolderOfStoredImage | src/utils/image.py:98-100 | for a stored path `<dir>/<name>`, the folder to prune is `static/<dir>` |
| Storage.Store.constructor | src/models/models.py:77-107 | an empty database holding the given users, valid |
| Storage.Store.CreateFollower | src/services/services.py:24-79 | answers with the status of `Follow`, ends in the state it commits, keeps the invariant |
| Storage.Store.DeleteFollower | src/services/services.py:98-153 | answers with the status of `Unfollow`, ends in the state it commits, keeps the invariant |
| Storage.Store.Like | src/services/services.py:359-393 | answers with the status of `LikeTweet`, ends in the state it commits, keeps the invariant |
| Storage.Store.Dislike | src/services/services.py:415-450 | answers with the status of `Dislike`, ends in the state it commits, keeps the invariant |
| Storage.Store.SaveImage | src/services/image.py:19-33 | returns the new id and ends in the state `Media.SaveImage` gives; a failed upload changes nothing |
| Storage.Store.UpdateImages | src/services/services.py:181-200 | binding the listed images one at a time gives the table `Media.UpdateImages` describes; nothing else changes, and for an existing tweet the invariant is kept |
| Storage.Store.CreateTweet | src/services/services.py:285-313 | returns the new id and ends in the state `Tweets.CreateTweet` gives, keeping the invariant |
| Storage.Store.DeleteTweet | src/services/services.py:316-350 | answers with the status of `Tweets.DeleteTweet`, ends in the state it commits, and on success returns the files and folder `Media.DeleteImages` computes from the tables before the delete |

## Left out

- File-system effects: writing the upload, `os.makedirs`, `os.remove` and `check_and_delete_folder` are not performed; `Media.DeleteImages` returns the files and the folder they would act on.
- The clock: `datetime.now()` in `save_image` becomes the year, month and day parameters, and `created_at` of a new tweet becomes the `now` parameter.
- `save_image` suppresses `OSError` and then returns `None`, which the non-nullable `path_media` turns into a 500: the service takes the upload's outcome as a `Result<string>` parameter instead.
- The HTTP routes, api-key authentication (`get_user_for_key`, `token.py`), `check_users` and the demonstration data loader are not part of this model.
- Concurrency between requests, logging, the session's flush and pydantic aliasing of field names are not modelled; each service call is one atomic transaction.
- Media.DeleteImagesPrunesFirstFolder: `get_images` selects without ORDER BY, so which image `delete_images` sees first is up to the database; Media.GetImages lists ids in increasing order, and the folder of the smallest id is pruned only because of that choice.
- Feed.GetTweets: the SQL order among tweets with equal `created_at` is unspecified; the model orders them by id and only promises non-increasing creation time.
- Feed.RenderLikes: the order of the ORM's `likes` and `images` collections is unspecified; the model renders both in id order, and states that order only for the attachments (`Feed.RenderedAttachments`): for likes it states membership.
- ImagePaths.Lower: lowers ASCII letters only; Python's Unicode lowering cannot turn a non-ASCII suffix into one of the four allowed extensions, so the outcome of `allowed_image` is the same.
- ImagePaths.SaveImagePathLayout: stated for relative file names; an absolute name makes `os.path.join` discard the directory.
- Models.DeleteUser: no service calls it; it models the cascade the ORM declares, as a function only.
- Integer width: every key and foreign-key column (`users.id`, `tweets.id`, `likes.id`, `images.id`, `tweet_id`, `user_id`, `tweets_id` and both `user_to_user` columns, src/models/models.py:10-18, 29-84) is a 32-bit `Integer` on PostgreSQL, so an id outside −2^31..2^31−1 in a request is refused by the driver with a 500. The model's ids are unbounded `nat`: such an id is simply absent, so like, dislike, delete, follow and unfollow answer 404 instead of 500, and `create_tweet` ignores such a media id instead of failing with 500 and storing nothing.
- `src/services/image.py` repeats `ImageService` of `src/services/services.py`; one model serves both.

## Findings

| source | as written | input that shows it | evidently intended | confidence | as-written member | corrected member |
|---|---|---|---|---|---|---|
| src/utils/image.py:42 | `clear_path` splits the full path at every occurrence of "static" and keeps the piece after the first one | upload a tweet image named "static.png" (any allowed name starting with "static"): it is written to `nginx/static/images/tweets/<y>/<m>/<d>/static.png`, but the stored path is `images/tweets/<y>/<m>/<d>/`, the directory without the file name | strip only the leading static folder, keeping everything after it | not executed | ImagePaths.SaveImageAsWrittenLosesFileName | ImagePaths.SaveImagePathLayout |

=== FILE: common.dfy ===
/** Failure-carrying values shared by the service layer. */
module Common {

  datatype Option<+T> = None | Some(value: T)

  /** The failures the services raise, one per HTTP status they use. */
  datatype Error =
    | NotFound       // 404: the referenced user or tweet does not exist
    | Invalid        // 422: the input is unacceptable (self-follow, long text, bad extension)
    | Locked         // 423: already done, not done yet, or not the owner
    | InternalError  // 500: an exception the code does not catch

  datatype Result<+T> = Ok(value: T) | Err(error: Error)

  /** The result of a check that returns nothing or raises. */
  datatype Outcome = Pass | Fail(error: Error)
}

=== FILE: feed.dfy ===
/**
 * `TweetsService.get_tweets` and the rendering of its result through
 * `TweetOutSchema`: the tweets of the users one follows, newest first,
 * each with its author, the users who liked it and its image paths.
 */
module Feed {
  import opened Common
  import opened Models
  import opened Seqs
  import opened LikeLedger
  import opened Media
  import opened Schemas
  import opened Tweets

  /** Every id in `s` is a tweet of `tweets`. */
  predicate AllTweets(tweets: map<TweetId, Tweet>, s: seq<TweetId>)
  {
    forall i :: 0 <= i < |s| ==> s[i] in tweets
  }

  /** `order_by(created_at.desc())`: no tweet comes before a newer one. */
  predicate NewestFirst(tweets: map<TweetId, Tweet>, s: seq<TweetId>)
    requires AllTweets(tweets, s)
  {
    forall i, j :: 0 <= i < j < |s| ==> tweets[s[i]].createdAt >= tweets[s[j]].createdAt
  }

  /** A tweet at least as new as every tweet of a newest-first list can go in front of it. */
  lemma PrependNewest(tweets: map<TweetId, Tweet>, h: TweetId, s: seq<TweetId>)
    requires h in tweets && AllTweets(tweets, s) && NewestFirst(tweets, s)
    requires forall i :: 0 <= i < |s| ==> tweets[h].createdAt >= tweets[s[i]].createdAt
    ensures AllTweets(tweets, [h] + s) && NewestFirst(tweets, [h] + s)
  {
    var r := [h] + s;
    forall i, j | 0 <= i < j < |r| ensures tweets[r[i]].createdAt >= tweets[r[j]].createdAt {
      assert r[j] == s[j - 1];
      if i > 0 {
        assert r[i] == s[i - 1];
      }
    }
  }

  /** The head of a newest-first list is at least as new as anything built from the rest and an older tweet. */
  lemma HeadIsNewest(tweets: map<TweetId, Tweet>, s: seq<TweetId>, x: TweetId, rest: seq<TweetId>)
    requires |s| > 0 && AllTweets(tweets, s) && NewestFirst(tweets, s)
    requires x in tweets && tweets[x].createdAt < tweets[s[0]].createdAt
    requires multiset(rest) == multiset(s[1..]) + multiset{x}
    ensures forall i :: 0 <= i < |rest| ==> rest[i] in tweets && tweets[s[0]].createdAt >= tweets[rest[i]].createdAt
  {
    forall i | 0 <= i < |rest| ensures rest[i] in tweets && tweets[s[0]].createdAt >= tweets[rest[i]].createdAt {
      assert rest[i] in multiset(rest);
      if rest[i] != x {
        assert rest[i] in multiset(s[1..]);
        var k :| 0 <= k < |s[1..]| && s[1..][k] == rest[i];
        assert s[k + 1] == rest[i];
      }
    }
  }

  /** Puts `x` before the first tweet that is not newer than it. */
  function Insert(tweets: map<TweetId, Tweet>, x: TweetId, s: seq<TweetId>): (r: seq<TweetId>)
    requires x in tweets && AllTweets(tweets, s) && NewestFirst(tweets, s)
    ensures multiset(r) == multiset(s) + multiset{x}
    ensures AllTweets(tweets, r) && NewestFirst(tweets, r)
  {
    if s == [] || tweets[x].createdAt >= tweets[s[0]].createdAt then
      PrependNewest(tweets, x, s);
      [x] + s
    else
      var rest := Insert(tweets, x, s[1..]);
      HeadIsNewest(tweets, s, x, rest);
      PrependNewest(tweets, s[0], rest);
      assert s == [s[0]] + s[1..];
      [s[0]] + rest
  }

  /** Insertion sort by creation time, newest first. */
  function SortNewestFirst(tweets: map<TweetId, Tweet>, s: seq<TweetId>): (r: seq<TweetId>)
    requires AllTweets(tweets, s)
    ensures multiset(r) == multiset(s)
    ensures AllTweets(tweets, r) && NewestFirst(tweets, r)
  {
    if s == [] then []
    else
      assert s == [s[0]] + s[1..];
      Insert(tweets, s[0], SortNewestFirst(tweets, s[1..]))
  }

  /** A list without duplicates has every multiplicity at most one, and back. */
  lemma {:induction false} NoDuplicatesMultiset<T>(s: seq<T>)
    ensures NoDuplicates(s) <==> forall x :: multiset(s)[x] <= 1
  {
    if s != [] {
      NoDuplicatesMultiset(s[1..]);
      assert s == [s[0]] + s[1..];
      if NoDuplicates(s) {
        assert NoDuplicates(s[1..]);
        forall k | 0 <= k < |s[1..]| ensures s[1..][k] != s[0] {
          assert s[1..][k] == s[k + 1];
        }
        assert s[0] !in s[1..];
      }
      if forall x :: multiset(s)[x] <= 1 {
        assert forall x :: multiset(s[1..])[x] <= 1 by {
          forall x ensures multiset(s[1..])[x] <= 1 {
            assert multiset(s)[x] == multiset([s[0]])[x] + multiset(s[1..])[x];
          }
        }
        assert multiset(s)[s[0]] == 1 + multiset(s[1..])[s[0]];
        forall i, j | 0 <= i < j < |s| ensures s[i] != s[j] {
          if i > 0 {
            assert s[i] == s[1..][i - 1] && s[j] == s[1..][j - 1];
          } else {
            assert s[j] == s[1..][j - 1] && s[j] in s[1..];
          }
        }
      }
    }
  }

  /** Does `user` follow the owner of `id`? */
  predicate InFeed(db: Tables, user: UserId, id: TweetId)
  {
    id in db.tweets && db.tweets[id].owner in Following(db, user)
  }

  /**
   * `get_tweets`: the tweets whose owner `user` follows, each once, newest
   * first. Tweets with the same creation time come in id order.
   */
  function GetTweets(db: Tables, user: UserId): (r: seq<TweetId>)
    requires TweetIdsBelowNext(db)
    ensures forall id :: id in r <==> InFeed(db, user, id)
    ensures NoDuplicates(r)
    ensures AllTweets(db.tweets, r) && NewestFirst(db.tweets, r)
  {
    var ids := Below(db.nextTweet, (id: nat) => InFeed(db, user, id));
    assert AllTweets(db.tweets, ids) by {
      forall i | 0 <= i < |ids| ensures ids[i] in db.tweets {
        assert ids[i] in ids;
      }
    }
    var r := SortNewestFirst(db.tweets, ids);
    assert forall id :: id in r <==> id in ids by {
      forall id ensures id in r <==> id in ids {
        assert id in r <==> id in multiset(r);
      }
    }
    NoDuplicatesMultiset(ids);
    NoDuplicatesMultiset(r);
    r
  }

  /** Following nobody gives an empty feed. */
  lemma EmptyFeedWithoutFollowing(db: Tables, user: UserId)
    requires TweetIdsBelowNext(db)
    requires Following(db, user) == {}
    ensures GetTweets(db, user) == []
  {
    BelowNone(db.nextTweet, (id: nat) => InFeed(db, user, id));
  }

  /** A deleted tweet leaves every feed. */
  lemma DeletedTweetLeavesFeeds(db: Tables, author: UserId, id: TweetId, reader: UserId)
    requires TweetIdsBelowNext(db)
    requires DeleteTweet(db, author, id).Ok?
    ensures TweetIdsBelowNext(DeleteTweet(db, author, id).value)
    ensures id !in GetTweets(DeleteTweet(db, author, id).value, reader)
  {
  }

  /** A new tweet shows up in the feed of exactly its author's followers. */
  lemma NewTweetReachesFollowers(db: Tables, current: UserId, text: string, mediaIds: Option<seq<ImageId>>, now: int, reader: UserId)
    requires TweetIdsBelowNext(db)
    ensures
      var (after, id) := CreateTweet(db, current, text, mediaIds, now);
      TweetIdsBelowNext(after) && (id in GetTweets(after, reader) <==> current in Following(db, reader))
  {
    var (after, id) := CreateTweet(db, current, text, mediaIds, now);
    assert Following(after, reader) == Following(db, reader);
  }

  // ---------------------------------------------------------------- rendering

  /** `TweetOutSchema`: id, content, author, likes and attachments. */
  datatype TweetOut = TweetOut(id: TweetId, content: string, author: UserOut, likes: seq<UserOut>, attachments: seq<string>)

  /** The like rows of `tweet`, in like id order. */
  function LikeIdsOf(db: Tables, tweet: TweetId): (r: seq<LikeId>)
    ensures forall i :: i in r <==> i < db.nextLike && exists l :: l in db.likes && l.id == i && l.tweet == tweet
  {
    Below(db.nextLike, (i: nat) => exists l :: l in db.likes && l.id == i && l.tweet == tweet)
  }

  /** The like row with primary key `i`. */
  function LikeWithId(db: Tables, i: LikeId): (r: Like)
    requires LikesWellFormed(db)
    requires exists l :: l in db.likes && l.id == i
    ensures r in db.likes && r.id == i
  {
    var l :| l in db.likes && l.id == i; l
  }

  /** Is `u` the id of one of the rendered users? */
  predicate Lists(users: seq<UserOut>, u: UserId)
  {
    exists k :: 0 <= k < |users| && users[k].id == u
  }

  /** The likes of `tweet` through `LikeSchema`: one entry per like row, the user who gave it. */
  function RenderLikes(db: Tables, tweet: TweetId): (r: seq<UserOut>)
    requires LikesWellFormed(db)
    ensures forall u :: Lists(r, u) <==> Liked(db.likes, tweet, u)
    ensures forall k :: 0 <= k < |r| ==> r[k].id in db.users && r[k].name == db.users[r[k].id]
  {
    var likeIds := LikeIdsOf(db, tweet);
    forall k | 0 <= k < |likeIds| ensures exists l :: l in db.likes && l.id == likeIds[k] {
      assert likeIds[k] in likeIds;
      var l :| l in db.likes && l.id == likeIds[k] && l.tweet == tweet;
    }
    var r := seq(|likeIds|, k requires 0 <= k < |likeIds| => ExtractUser(db.users, LikeWithId(db, likeIds[k])));
    forall u ensures Lists(r, u) <==> Liked(db.likes, tweet, u) {
      RenderedLikers(db, tweet, likeIds, r, u);
    }
    r
  }

  /** Each rendered like names a user who liked the tweet, and every such user is named. */
  lemma RenderedLikers(db: Tables, tweet: TweetId, likeIds: seq<LikeId>, r: seq<UserOut>, u: UserId)
    requires LikesWellFormed(db) && likeIds == LikeIdsOf(db, tweet)
    requires forall k :: 0 <= k < |likeIds| ==> exists l :: l in db.likes && l.id == likeIds[k]
    requires |r| == |likeIds|
    requires forall k :: 0 <= k < |r| ==> r[k] == ExtractUser(db.users, LikeWithId(db, likeIds[k]))
    ensures Lists(r, u) <==> Liked(db.likes, tweet, u)
  {
    if k :| 0 <= k < |r| && r[k].id == u {
      var l := LikeWithId(db, likeIds[k]);
      assert likeIds[k] in likeIds;
      var l' :| l' in db.likes && l'.id == likeIds[k] && l'.tweet == tweet;
      assert l == l';
    }
    if Liked(db.likes, tweet, u) {
      var l :| l in db.likes && l.user == u && l.tweet == tweet;
      assert l.id in likeIds;
      var k :| 0 <= k < |likeIds| && likeIds[k] == l.id;
      assert LikeWithId(db, l.id) == l;
      assert r[k].id == u;
    }
  }

  /** Renders one tweet: its author, `extract_user` for each like, `serialize_images` for the images. */
  function RenderTweet(db: Tables, id: TweetId): (r: TweetOut)
    requires Valid(db) && id in db.tweets
    ensures r.id == id && r.content == db.tweets[id].text
    ensures r.author == UserOut(db.tweets[id].owner, db.users[db.tweets[id].owner])
    ensures forall u :: Lists(r.likes, u) <==> Liked(db.likes, id, u)
    ensures forall k :: 0 <= k < |r.likes| ==> r.likes[k].id in db.users && r.likes[k].name == db.users[r.likes[k].id]
  {
    var tweet := db.tweets[id];
    var images := GetImages(db, id);
    var rows := seq(|images|, k requires 0 <= k < |images| => db.images[images[k]]);
    TweetOut(id, tweet.text, UserOut(tweet.owner, db.users[tweet.owner]), RenderLikes(db, id),
             SerializeImages<()>(ImageRows(rows)).paths)
  }

  /** The attachments of a rendered tweet are the paths of its images, in id order. */
  lemma RenderedAttachments(db: Tables, id: TweetId)
    requires Valid(db) && id in db.tweets
    ensures |RenderTweet(db, id).attachments| == |GetImages(db, id)|
    ensures forall k :: 0 <= k < |GetImages(db, id)| ==>
      RenderTweet(db, id).attachments[k] == db.images[GetImages(db, id)[k]].path
  {
  }

  /**
   * `r` renders the feed of `user`: every entry is a tweet of a followed
   * user with its own text, each such tweet appears, newest first.
   */
  ghost predicate RendersFeed(db: Tables, user: UserId, r: seq<TweetOut>)
  {
    && (forall k :: 0 <= k < |r| ==> InFeed(db, user, r[k].id) && r[k].content == db.tweets[r[k].id].text)
    && (forall id :: InFeed(db, user, id) ==> exists k :: 0 <= k < |r| && r[k].id == id)
    && (forall i, j :: 0 <= i < j < |r| ==>
          r[i].id in db.tweets && r[j].id in db.tweets && db.tweets[r[i].id].createdAt >= db.tweets[r[j].id].createdAt)
    && (forall i, j :: 0 <= i < j < |r| ==> r[i].id != r[j].id)
  }

  /** Entries that follow `get_tweets` one to one render the feed. */
  lemma FeedEntries(db: Tables, user: UserId, ids: seq<TweetId>, r: seq<TweetOut>)
    requires forall id :: id in ids <==> InFeed(db, user, id)
    requires AllTweets(db.tweets, ids) && NewestFirst(db.tweets, ids) && NoDuplicates(ids)
    requires |r| == |ids|
    requires forall k :: 0 <= k < |r| ==> r[k].id == ids[k] && r[k].content == db.tweets[ids[k]].text
    ensures RendersFeed(db, user, r)
  {
    forall k | 0 <= k < |r| ensures InFeed(db, user, r[k].id) {
      assert ids[k] in ids;
    }
    forall id | InFeed(db, user, id) ensures exists k :: 0 <= k < |r| && r[k].id == id {
      var k :| 0 <= k < |ids| && ids[k] == id;
      assert r[k].id == id;
    }
  }

  /** `get_tweets` rendered through `TweetListSchema`. */
  function RenderFeed(db: Tables, user: UserId): (r: seq<TweetOut>)
    requires Valid(db)
    ensures RendersFeed(db, user, r)
    ensures |r| == |GetTweets(db, user)|
    ensures forall k :: 0 <= k < |r| ==> r[k].id in db.tweets && r[k] == RenderTweet(db, r[k].id)
  {
    var ids := GetTweets(db, user);
    var r := seq(|ids|, k requires 0 <= k < |ids| => RenderTweet(db, ids[k]));
    forall k | 0 <= k < |r| ensures r[k].id == ids[k] && r[k].content == db.tweets[ids[k]].text {
      assert r[k] == RenderTweet(db, ids[k]);
    }
    FeedEntries(db, user, ids, r);
    r
  }
}

=== FILE: follow_ledger.dfy ===
/**
 * `FollowerService`: creating and removing a follow edge. Both operations
 * run three checks in a fixed order: self (422), then the target's
 * existence (404), then the edge's presence or absence (423).
 */
module FollowLedger {
  import opened Common
  import opened Models

  /** `check_follower`: is `target` among the users `current` follows? */
  predicate CheckFollower(db: Tables, current: UserId, target: UserId)
    ensures CheckFollower(db, current, target) <==> Edge(current, target) in db.follows
  {
    target in Following(db, current)
  }

  /** The two tables agree on everything but the follow edges. */
  predicate SameExceptFollows(a: Tables, b: Tables)
  {
    a.(follows := b.follows) == b
  }

  /** `create_follower`. */
  function Follow(db: Tables, current: UserId, target: UserId): (r: Result<Tables>)
    ensures current == target ==> r == Err(Invalid)
    ensures current != target && target !in db.users ==> r == Err(NotFound)
    ensures current != target && target in db.users && CheckFollower(db, current, target) ==> r == Err(Locked)
    ensures r.Ok? <==> current != target && target in db.users && !CheckFollower(db, current, target)
    ensures r.Ok? ==> SameExceptFollows(db, r.value)
    ensures r.Ok? ==> Edge(current, target) !in db.follows && r.value.follows == db.follows + {Edge(current, target)}
  {
    if CheckUserForId(current, target) then Err(Invalid)
    else if GetUserForId(db, target).None? then Err(NotFound)
    else if CheckFollower(db, current, target) then Err(Locked)
    else Ok(db.(follows := db.follows + {Edge(current, target)}))
  }

  /** `delete_follower`. */
  function Unfollow(db: Tables, current: UserId, target: UserId): (r: Result<Tables>)
    ensures current == target ==> r == Err(Invalid)
    ensures current != target && target !in db.users ==> r == Err(NotFound)
    ensures current != target && target in db.users && !CheckFollower(db, current, target) ==> r == Err(Locked)
    ensures r.Ok? <==> current != target && target in db.users && CheckFollower(db, current, target)
    ensures r.Ok? ==> SameExceptFollows(db, r.value)
    ensures r.Ok? ==> Edge(current, target) in db.follows && r.value.follows == db.follows - {Edge(current, target)}
  {
    if CheckUserForId(current, target) then Err(Invalid)
    else if GetUserForId(db, target).None? then Err(NotFound)
    else if !CheckFollower(db, current, target) then Err(Locked)
    else Ok(db.(follows := db.follows - {Edge(current, target)}))
  }

  /** After a successful follow, the actor follows the target and the target has the actor as follower. */
  lemma FollowIsVisibleBothWays(db: Tables, current: UserId, target: UserId)
    requires Follow(db, current, target).Ok?
    ensures Following(Follow(db, current, target).value, current) == Following(db, current) + {target}
    ensures Followers(Follow(db, current, target).value, target) == Followers(db, target) + {current}
  {
    var after := Follow(db, current, target).value;
    assert Following(after, current) == Following(db, current) + {target} by {
      forall v ensures v in Following(after, current) <==> v in Following(db, current) + {target} {
        if v in Following(after, current) {
          var e :| e in after.follows && e.follower == current && e.following == v;
        }
        if v in Following(db, current) {
          var e :| e in db.follows && e.follower == current && e.following == v;
          assert e in after.follows;
        }
        assert Edge(current, target) in after.follows;
      }
    }
  }

  /** A follow keeps the invariant, in particular that nobody follows themself. */
  lemma FollowKeepsValid(db: Tables, current: UserId, target: UserId)
    requires Valid(db) && current in db.users
    requires Follow(db, current, target).Ok?
    ensures Valid(Follow(db, current, target).value)
  {
  }

  /** An unfollow keeps the invariant. */
  lemma UnfollowKeepsValid(db: Tables, current: UserId, target: UserId)
    requires Valid(db)
    requires Unfollow(db, current, target).Ok?
    ensures Valid(Unfollow(db, current, target).value)
  {
  }

  /** Following and then unfollowing the same user restores the tables. */
  lemma FollowThenUnfollow(db: Tables, current: UserId, target: UserId)
    requires Follow(db, current, target).Ok?
    ensures Unfollow(Follow(db, current, target).value, current, target) == Ok(db)
  {
    var after := Follow(db, current, target).value;
    assert Edge(current, target) in after.follows;
    assert target in Following(after, current);
    assert after.follows - {Edge(current, target)} == db.follows;
  }

  /** Unfollowing and then following again restores the tables. */
  lemma UnfollowThenFollow(db: Tables, current: UserId, target: UserId)
    requires Unfollow(db, current, target).Ok?
    ensures Follow(Unfollow(db, current, target).value, current, target) == Ok(db)
  {
    var after := Unfollow(db, current, target).value;
    assert after.follows + {Edge(current, target)} == db.follows;
  }

  /** A second identical follow is refused with 423 and leaves exactly one edge. */
  lemma FollowTwiceIsLocked(db: Tables, current: UserId, target: UserId)
    requires Follow(db, current, target).Ok?
    ensures Follow(Follow(db, current, target).value, current, target) == Err(Locked)
    ensures Edge(current, target) in Follow(db, current, target).value.follows
  {
    var after := Follow(db, current, target).value;
    assert Edge(current, target) in after.follows;
    assert target in Following(after, current);
  }
}

=== FILE: image_paths.dfy ===
/**
 * The pure string computations of `src/utils/image.py`: the extension
 * allow-list, `clear_path`, the upload directory chosen by `save_image`
 * and the folder `delete_images` hands to pruning. Python's `str` is
 * modelled as `string`; `os.path.join` as POSIX `posixpath.join`.
 */
module ImagePaths {
  import opened Common

  /** `ALLOWED_EXTENSIONS`. */
  const AllowedExtensions: set<string> := {"png", "jpg", "jpeg", "gif"}

  /** The word `clear_path` splits on. */
  const StaticWord: string := "static"

  // ---------------------------------------------------------------- characters

  /**
   * `str.lower` on one character, for ASCII letters. No other character
   * lower-cases to a single ASCII letter of an allowed extension, so the
   * allow-list test is exact with this restriction.
   */
  function LowerChar(c: char): char
  {
    if 'A' <= c <= 'Z' then (c as int - 'A' as int + 'a' as int) as char else c
  }

  function Lower(s: string): (r: string)
    ensures |r| == |s|
    ensures forall i :: 0 <= i < |s| ==> r[i] == LowerChar(s[i])
  {
    if s == [] then [] else [LowerChar(s[0])] + Lower(s[1..])
  }

  /** `str.rfind(c)` for one character: the index of its last occurrence. */
  function LastIndexOf(s: string, c: char): (r: Option<nat>)
    ensures r.None? <==> c !in s
    ensures r.Some? ==> r.value < |s| && s[r.value] == c && c !in s[r.value + 1..]
  {
    if s == [] then None
    else if s[|s| - 1] == c then Some(|s| - 1)
    else
      var r := LastIndexOf(s[..|s| - 1], c);
      assert s == s[..|s| - 1] + [s[|s| - 1]];
      r
  }

  /** `s.rsplit(c, 1)`: the whole string, or the parts before and after the last `c`. */
  function RSplitOnce(s: string, c: char): (r: seq<string>)
    ensures c !in s ==> r == [s]
    ensures c in s ==> |r| == 2 && s == r[0] + [c] + r[1] && c !in r[1]
  {
    match LastIndexOf(s, c)
    case None => [s]
    case Some(i) =>
      assert s == s[..i] + [c] + s[i + 1..];
      [s[..i], s[i + 1..]]
  }

  /** `posixpath.join(a, b)`: an absolute `b` replaces `a`; otherwise one `/` separates them. */
  function Join(a: string, b: string): string
  {
    if |b| > 0 && b[0] == '/' then b
    else if a == [] || a[|a| - 1] == '/' then a + b
    else a + "/" + b
  }

  /**
   * What `Join` keeps: an absolute `b` alone; otherwise `a` in front, `b` at
   * the end and at most one separator between them.
   */
  lemma JoinParts(a: string, b: string)
    ensures |b| > 0 && b[0] == '/' ==> Join(a, b) == b
    ensures !(|b| > 0 && b[0] == '/') ==>
      |a| + |b| <= |Join(a, b)| <= |a| + 1 + |b| && Join(a, b)[..|a|] == a
    ensures |b| <= |Join(a, b)| && Join(a, b)[|Join(a, b)| - |b|..] == b
    ensures !(|b| > 0 && b[0] == '/') && (a == [] || a[|a| - 1] == '/') ==> Join(a, b) == a + b
    ensures !(|b| > 0 && b[0] == '/') && |Join(a, b)| == |a| + 1 + |b| ==> Join(a, b)[|a|] == '/'
  {
    var r := Join(a, b);
    if !(|b| > 0 && b[0] == '/') {
      assert r[..|a|] == a;
    }
    assert r[|r| - |b|..] == b;
  }

  // ---------------------------------------------------------------- allowed_image

  /** A name whose text after its last `.`, lower-cased, is an allowed extension. */
  ghost predicate HasAllowedExtension(name: string)
  {
    exists i :: 0 <= i < |name| && name[i] == '.' && '.' !in name[i + 1..] && Lower(name[i + 1..]) in AllowedExtensions
  }

  /** `allowed_image`: passes, or fails with 422. */
  function AllowedImage(name: string): (r: Outcome)
    ensures r == Pass <==> HasAllowedExtension(name)
    ensures r != Pass ==> r == Fail(Invalid)
  {
    if '.' in name && Lower(RSplitOnce(name, '.')[1]) in AllowedExtensions then
      var i := LastIndexOf(name, '.').value;
      LastIsUnique(name, '.', i);
      assert name[i] == '.' && '.' !in name[i + 1..] && Lower(name[i + 1..]) in AllowedExtensions;
      Pass
    else
      assert !HasAllowedExtension(name) by {
        if i :| 0 <= i < |name| && name[i] == '.' && '.' !in name[i + 1..] && Lower(name[i + 1..]) in AllowedExtensions {
          LastIsUnique(name, '.', i);
        }
      }
      Fail(Invalid)
  }

  /** `i` is the position of the last `c` in `s`. */
  predicate LastAt(s: string, c: char, i: int)
  {
    0 <= i < |s| && s[i] == c && c !in s[i + 1..]
  }

  /** A `c` with no `c` after it is the last one, so `rsplit` cuts there. */
  lemma LastIsUnique(s: string, c: char, i: nat)
    requires LastAt(s, c, i)
    ensures RSplitOnce(s, c) == [s[..i], s[i + 1..]]
  {
    var j := LastIndexOf(s, c).value;
  }

  /** The verdict depends only on the text after the last `.`. */
  lemma AllowedImageByLastDot(name: string, i: nat)
    requires i < |name| && name[i] == '.' && '.' !in name[i + 1..]
    ensures AllowedImage(name) == Pass <==> Lower(name[i + 1..]) in AllowedExtensions
  {
    LastIsUnique(name, '.', i);
    assert name[i] in name;
  }

  /** Only the final suffix counts, and case is ignored. */
  lemma AllowedImageIgnoresCase()
    ensures AllowedImage("a.JPG") == Pass
  {
    assert "a.JPG"[2..] == "JPG";
    assert Lower("JPG") == "jpg";
    AllowedImageByLastDot("a.JPG", 1);
  }

  lemma AllowedImageLooksAtLastSuffix()
    ensures AllowedImage("x.exe.png") == Pass
  {
    assert "x.exe.png"[6..] == "png";
    assert Lower("png") == "png";
    AllowedImageByLastDot("x.exe.png", 5);
  }

  lemma AllowedImageRejectsHiddenSuffix()
    ensures AllowedImage("a.png.exe") == Fail(Invalid)
  {
    assert "a.png.exe"[6..] == "exe";
    assert Lower("exe") == "exe";
    assert "exe" !in AllowedExtensions by {
      assert "exe"[0] != "png"[0] && "exe"[0] != "jpg"[0] && "exe"[0] != "gif"[0];
      assert |"exe"| != |"jpeg"|;
    }
    AllowedImageByLastDot("a.png.exe", 5);
  }

  lemma AllowedImageNeedsSuffix()
    ensures AllowedImage("noext") == Fail(Invalid)
  {
    assert '.' !in "noext";
  }

  // ---------------------------------------------------------------- clear_path

  predicate OccursAt(s: string, pat: string, i: nat)
  {
    i + |pat| <= |s| && s[i..i + |pat|] == pat
  }

  /** `s.find(pat, from)`: the first occurrence of `pat` at or after `from`. */
  function Find(s: string, pat: string, from: nat): (r: Option<nat>)
    requires from <= |s|
    decreases |s| - from
    ensures r.Some? ==> from <= r.value && OccursAt(s, pat, r.value)
    ensures r.Some? ==> forall j: nat :: from <= j < r.value ==> !OccursAt(s, pat, j)
    ensures r.None? ==> forall j: nat :: from <= j ==> !OccursAt(s, pat, j)
  {
    if from + |pat| > |s| then None
    else if OccursAt(s, pat, from) then Some(from)
    else Find(s, pat, from + 1)
  }

  /** `s[1:]`. */
  function DropFirst(s: string): string
  {
    if s == [] then [] else s[1..]
  }

  /**
   * `clear_path`: `path.split("static")[1][1:]`, the text between the first
   * and the second occurrence of "static" without its first character.
   * `None` is the `IndexError` raised when "static" does not occur.
   */
  function ClearPath(path: string): (r: Option<string>)
    ensures r.None? <==> forall j: nat :: !OccursAt(path, StaticWord, j)
  {
    match Find(path, StaticWord, 0)
    case None => None
    case Some(i) =>
      var start := i + |StaticWord|;
      match Find(path, StaticWord, start)
      case None => Some(DropFirst(path[start..]))
      case Some(k) => Some(DropFirst(path[start..k]))
  }

  /** With a single occurrence of "static", `clear_path` keeps the text after "static/". */
  lemma ClearPathSingleOccurrence(path: string, i: nat)
    requires OccursAt(path, StaticWord, i)
    requires forall j: nat :: j != i ==> !OccursAt(path, StaticWord, j)
    ensures ClearPath(path) == Some(DropFirst(path[i + |StaticWord|..]))
  {
    var f := Find(path, StaticWord, 0);
    assert f == Some(i);
  }

  /** A mismatch at one position rules out an occurrence there. */
  lemma MismatchAt(s: string, pat: string, j: nat, k: nat)
    requires k < |pat| && j + k < |s| && s[j + k] != pat[k]
    ensures !OccursAt(s, pat, j)
  {
    if j + |pat| <= |s| {
      assert s[j..j + |pat|][k] == s[j + k];
    }
  }

  /** "nginx/static/" holds "static" at index 6 and nowhere else. */
  lemma StaticPrefixOccurrences(rest: string, j: nat)
    requires j < 13 && j != 6
    ensures !OccursAt("nginx/static/" + rest, StaticWord, j)
  {
    var p := "nginx/static/";
    var s := p + rest;
    assert s[j] == p[j];
    assert p[j] != 's' by {
      if j < 6 {
        assert p[..6] == "nginx/";
        assert p[j] == p[..6][j];
        assert p[j] in "nginx/";
      } else {
        assert p[7..] == "tatic/";
        assert p[j] == p[7..][j - 7];
        assert p[j] in "tatic/";
      }
    }
    MismatchAt(s, StaticWord, j, 0);
  }

  /** The first "static" of a path below "nginx/static/" is the folder's own. */
  lemma FindUnderStaticFolder(rest: string)
    ensures Find("nginx/static/" + rest, StaticWord, 0) == Some(6)
  {
    var s := "nginx/static/" + rest;
    assert OccursAt(s, StaticWord, 6);
    forall j: nat | j < 6 ensures !OccursAt(s, StaticWord, j) {
      StaticPrefixOccurrences(rest, j);
    }
  }

  /** As written, `clear_path` strips "nginx/static/" whenever the rest does not contain "static". */
  lemma ClearPathUnderStaticFolder(rest: string)
    requires forall k: nat :: !OccursAt(rest, StaticWord, k)
    ensures ClearPath("nginx/static/" + rest) == Some(rest)
  {
    var s := "nginx/static/" + rest;
    FindUnderStaticFolder(rest);
    forall j: nat | 12 <= j ensures !OccursAt(s, StaticWord, j) {
      if j < 13 {
        StaticPrefixOccurrences(rest, j);
      } else if j + 6 <= |s| {
        assert s[j..j + 6] == rest[j - 13..j - 13 + 6];
        assert !OccursAt(rest, StaticWord, j - 13);
      }
    }
    assert s[12..] == "/" + rest;
  }

  /** Between the static folder and the file name, a directory without 'c' holds no "static". */
  lemma NoStaticBeforeFileName(dir: string, name: string, j: nat)
    requires 'c' !in dir && 12 <= j < 14 + |dir|
    ensures !OccursAt("nginx/static/" + (dir + "/" + name), StaticWord, j)
  {
    var rest := dir + "/" + name;
    var s := "nginx/static/" + rest;
    if j + 5 < 13 + |dir| {
      var k := j + 5 - 13;
      assert s[j + 5] == rest[k] == dir[k];
      assert dir[k] in dir;
      MismatchAt(s, StaticWord, j, 5);
    } else {
      var o := 13 + |dir| - j;
      assert s[j + o] == rest[|dir|] == '/';
      assert StaticWord[o] in StaticWord;
      MismatchAt(s, StaticWord, j, o);
    }
  }

  /** An occurrence after a prefix is an occurrence in the rest, shifted. */
  lemma ShiftOccurs(p: string, x: string, pat: string, i: nat)
    ensures OccursAt(p + x, pat, |p| + i) <==> OccursAt(x, pat, i)
  {
    if i + |pat| <= |x| {
      assert (p + x)[|p| + i..|p| + i + |pat|] == x[i..i + |pat|];
    }
  }

  /** `name` up to its first "static", or all of it when there is none. */
  function BeforeStatic(name: string): (r: string)
    ensures |r| <= |name| && r == name[..|r|]
    ensures r == name <==> forall j: nat :: !OccursAt(name, StaticWord, j)
    ensures r != name ==> OccursAt(name, StaticWord, |r|)
    ensures forall j: nat :: j < |r| ==> !OccursAt(name, StaticWord, j)
  {
    match Find(name, StaticWord, 0)
    case None => name
    case Some(n) => name[..n]
  }

  lemma RegroupUnder(q: string, dir: string, name: string)
    ensures q + (dir + "/" + name) == q + dir + "/" + name
  {
  }

  /** The first occurrence at or after `from` is what `Find` reports. */
  lemma FindIsFirst(s: string, pat: string, from: nat, m: nat)
    requires from <= m && OccursAt(s, pat, m)
    requires forall j: nat :: from <= j < m ==> !OccursAt(s, pat, j)
    ensures Find(s, pat, from) == Some(m)
  {
    assert from <= |s|;
  }

  /** With no occurrence at or after `from`, `Find` reports none. */
  lemma FindNone(s: string, pat: string, from: nat)
    requires from <= |s| && |pat| > 0
    requires forall j: nat :: from <= j < |s| ==> !OccursAt(s, pat, j)
    ensures Find(s, pat, from).None?
  {
  }

  /** After a prefix with no occurrence from `from` on, `Find` reports the first occurrence in the rest. */
  lemma FindAfterPrefix(p: string, x: string, pat: string, from: nat)
    requires from <= |p| && |pat| > 0
    requires forall j: nat :: from <= j < |p| ==> !OccursAt(p + x, pat, j)
    ensures Find(x, pat, 0).None? ==> Find(p + x, pat, from).None?
    ensures Find(x, pat, 0).Some? ==> Find(p + x, pat, from) == Some(|p| + Find(x, pat, 0).value)
  {
    forall j: nat | |p| <= j ensures OccursAt(p + x, pat, j) <==> OccursAt(x, pat, j - |p|) {
      ShiftOccurs(p, x, pat, j - |p|);
    }
    match Find(x, pat, 0)
    case None =>
      FindNone(p + x, pat, from);
    case Some(n) =>
      FindIsFirst(p + x, pat, from, |p| + n);
  }

  /** Between the static folder and the file name, "static" does not start. */
  lemma NoStaticInUploadDir(dir: string, name: string)
    requires 'c' !in dir
    ensures forall j: nat :: 12 <= j < 14 + |dir| ==> !OccursAt("nginx/static/" + dir + "/" + name, StaticWord, j)
  {
    RegroupUnder("nginx/static/", dir, name);
    forall j: nat | 12 <= j < 14 + |dir| ensures !OccursAt("nginx/static/" + dir + "/" + name, StaticWord, j) {
      NoStaticBeforeFileName(dir, name, j);
    }
  }

  /** Below "nginx/static/<dir>/", the second "static" of the path is the first one of the file name. */
  lemma SecondFindUnderUploadDir(dir: string, name: string)
    requires 'c' !in dir
    ensures Find(name, StaticWord, 0).None? ==> Find("nginx/static/" + (dir + "/" + name), StaticWord, 12).None?
    ensures Find(name, StaticWord, 0).Some? ==>
      Find("nginx/static/" + (dir + "/" + name), StaticWord, 12).Some? &&
      Find("nginx/static/" + (dir + "/" + name), StaticWord, 12).value == 14 + |dir| + Find(name, StaticWord, 0).value
  {
    var p := "nginx/static/" + dir + "/";
    RegroupUnder("nginx/static/", dir, name);
    assert forall j: nat :: 12 <= j < |p| ==> !OccursAt(p + name, StaticWord, j) by {
      NoStaticInUploadDir(dir, name);
    }
    FindAfterPrefix(p, name, StaticWord, 12);
  }

  /**
   * As written, a file stored below "nginx/static/<dir>/" keeps its name
   * only up to the first "static" in it: `clear_path` ends the stored path
   * at the second "static" of the full path.
   */
  lemma ClearPathUnderUploadDir(dir: string, name: string)
    requires 'c' !in dir
    ensures ClearPath("nginx/static/" + (dir + "/" + name)) == Some(dir + "/" + BeforeStatic(name))
  {
    var s := "nginx/static/" + (dir + "/" + name);
    FindUnderStaticFolder(dir + "/" + name);
    SecondFindUnderUploadDir(dir, name);
    match Find(name, StaticWord, 0)
    case None =>
      assert s[12..] == "/" + (dir + "/" + name);
      assert ClearPath(s) == Some(DropFirst(s[12..]));
    case Some(n) =>
      var k := 14 + |dir| + n;
      assert Find(s, StaticWord, 12).value == k;
      assert s[12..k] == "/" + (dir + "/" + name[..n]);
      assert ClearPath(s) == Some(DropFirst(s[12..k]));
  }

  /**
   * The evidently intended `clear_path`: `path.split("static", 1)[1][1:]`,
   * everything after the first "static" and its separator.
   */
  function ClearPathFixed(path: string): (r: Option<string>)
    ensures r.None? <==> forall j: nat :: !OccursAt(path, StaticWord, j)
  {
    match Find(path, StaticWord, 0)
    case None => None
    case Some(i) => Some(DropFirst(path[i + |StaticWord|..]))
  }

  /** The corrected `clear_path` strips "nginx/static/" from every path below that folder. */
  lemma ClearPathFixedUnderStaticFolder(rest: string)
    ensures ClearPathFixed("nginx/static/" + rest) == Some(rest)
  {
    FindUnderStaticFolder(rest);
    assert ("nginx/static/" + rest)[12..] == "/" + rest;
  }

  // ---------------------------------------------------------------- save_image

  /** `STATIC_FOLDER`. */
  const StaticFolder: string := Join(Join("", "nginx"), "static")

  /** `IMAGES_FOLDER`. */
  const ImagesFolder: string := Join(StaticFolder, "images")

  /** Joining below a fixed prefix: the prefix stays in front. */
  lemma JoinUnderPrefix(p: string, x: string, b: string)
    requires |x| > 0 && (|b| == 0 || b[0] != '/')
    ensures Join(p + x, b) == p + Join(x, b)
  {
    var px := p + x;
    assert px[|px| - 1] == x[|x| - 1];
    if x[|x| - 1] == '/' {
      assert Join(px, b) == px + b;
      assert px + b == p + (x + b);
    } else {
      assert Join(px, b) == px + "/" + b;
      assert px + "/" + b == p + (x + "/" + b);
    }
  }

  /** Two relative parts are joined with exactly one '/'. */
  lemma JoinRelative(a: string, b: string)
    requires |a| > 0 && a[|a| - 1] != '/' && |b| > 0 && b[0] != '/'
    ensures Join(a, b) == a + "/" + b
  {
  }

  function Digit(d: nat): char
    requires d < 10
  {
    ('0' as int + d) as char
  }

  /** `f"{n}"`: decimal digits, no padding (a leading '0' only for zero itself). */
  function Decimal(n: nat): (r: string)
    ensures |r| > 0
    ensures forall i :: 0 <= i < |r| ==> '0' <= r[i] <= '9'
    ensures r[0] == '0' <==> n == 0
  {
    if n < 10 then [Digit(n)] else Decimal(n / 10) + [Digit(n % 10)]
  }

  /** The number a string of decimal digits denotes. */
  function DigitsValue(s: string): nat
    requires forall i :: 0 <= i < |s| ==> '0' <= s[i] <= '9'
  {
    if s == [] then 0 else DigitsValue(s[..|s| - 1]) * 10 + (s[|s| - 1] as int - '0' as int)
  }

  /** `Decimal` writes `n` back: reading its digits gives `n`. */
  lemma {:induction false} DecimalRoundTrip(n: nat)
    ensures DigitsValue(Decimal(n)) == n
  {
    if n >= 10 {
      DecimalRoundTrip(n / 10);
      var r := Decimal(n);
      assert r[..|r| - 1] == Decimal(n / 10);
    }
  }

  /**
   * The directory `save_image` writes to, for the date it reads from the
   * clock: below "nginx/static/", the directory `UploadSubdir` names.
   */
  function UploadDir(avatar: bool, year: nat, month: nat, day: nat): (r: string)
    ensures r == "nginx/static/" + UploadSubdir(avatar, year, month, day)
  {
    var p := "nginx/static/";
    StaticFolders();
    if avatar then
      JoinUnderPrefix(p, "images", "avatars");
      Join(ImagesFolder, "avatars")
    else
      var y, m, d := Decimal(year), Decimal(month), Decimal(day);
      JoinUnderPrefix(p, "images", "tweets");
      var t1 := Join("images", "tweets");
      JoinUnderPrefix(p, t1, y);
      var t2 := Join(t1, y);
      JoinUnderPrefix(p, t2, m);
      var t3 := Join(t2, m);
      JoinUnderPrefix(p, t3, d);
      Join(Join(Join(Join(ImagesFolder, "tweets"), y), m), d)
  }

  /** The same directory relative to the static folder: images/avatars or images/tweets/Y/M/D. */
  function UploadSubdir(avatar: bool, year: nat, month: nat, day: nat): (r: string)
    ensures avatar ==> r == "images/avatars"
    ensures !avatar ==> r == "images/tweets/" + Decimal(year) + "/" + Decimal(month) + "/" + Decimal(day)
    ensures |r| > 0 && r[0] == 'i' && r[|r| - 1] != '/'
    ensures 'c' !in r && '\\' !in r
  {
    if avatar then
      JoinRelative("images", "avatars");
      Join("images", "avatars")
    else
      var y, m, d := Decimal(year), Decimal(month), Decimal(day);
      DigitsOnly(y);
      DigitsOnly(m);
      DigitsOnly(d);
      JoinRelative("images", "tweets");
      assert Join("images", "tweets") == "images/tweets";
      DatedSubdir(y, m, d);
      var r := "images/tweets/" + y + "/" + m + "/" + d;
      assert r[0] == 'i' && r[|r| - 1] == d[|d| - 1] && d[|d| - 1] in d;
      Join(Join(Join(Join("images", "tweets"), y), m), d)
  }

  lemma DigitsOnly(s: string)
    requires forall i :: 0 <= i < |s| ==> '0' <= s[i] <= '9'
    ensures 'c' !in s && '\\' !in s && '/' !in s
  {
    forall ch | ch in s ensures '0' <= ch <= '9' { var i :| 0 <= i < |s| && s[i] == ch; }
  }

  /** Joining the date parts below "images/tweets" puts one '/' between each. */
  lemma DatedSubdir(y: string, m: string, d: string)
    requires |y| > 0 && |m| > 0 && |d| > 0 && '/' !in y && '/' !in m && '/' !in d
    ensures Join(Join(Join("images/tweets", y), m), d) == "images/tweets/" + y + "/" + m + "/" + d
  {
    assert y[0] in y && y[|y| - 1] in y && m[0] in m && m[|m| - 1] in m && d[0] in d;
    var t1 := "images/tweets";
    JoinRelative(t1, y);
    var t2 := t1 + "/" + y;
    assert t2[|t2| - 1] == y[|y| - 1];
    JoinRelative(t2, m);
    var t3 := t2 + "/" + m;
    assert t3[|t3| - 1] == m[|m| - 1];
    JoinRelative(t3, d);
  }

  lemma StaticFolders()
    ensures StaticFolder == "nginx/static"
    ensures ImagesFolder == "nginx/static/" + "images"
  {
    assert Join("", "nginx") == "nginx";
    JoinRelative("nginx", "static");
    JoinRelative("nginx/static", "images");
  }

  /**
   * The path `save_image` returns (and the service stores), with the
   * corrected `clear_path`: the allow-list check (422), then the cleared
   * path of the written file; `InternalError` is the `IndexError` of a
   * path without "static".
   */
  function SaveImagePath(filename: string, avatar: bool, year: nat, month: nat, day: nat): (r: Result<string>)
    ensures AllowedImage(filename) != Pass ==> r == Err(Invalid)
    ensures r.Ok? ==> AllowedImage(filename) == Pass
  {
    if AllowedImage(filename) != Pass then Err(Invalid)
    else
      match ClearPathFixed(Join(UploadDir(avatar, year, month, day), filename))
      case None => Err(InternalError)
      case Some(p) => Ok(p)
  }

  /** The same path with `clear_path` as written. */
  function SaveImagePathAsWritten(filename: string, avatar: bool, year: nat, month: nat, day: nat): (r: Result<string>)
    ensures AllowedImage(filename) != Pass ==> r == Err(Invalid)
    ensures r.Ok? ==> AllowedImage(filename) == Pass
  {
    if AllowedImage(filename) != Pass then Err(Invalid)
    else
      match ClearPath(Join(UploadDir(avatar, year, month, day), filename))
      case None => Err(InternalError)
      case Some(p) => Ok(p)
  }

  /**
   * Corrected: every allowed, relative file name is stored as the upload
   * directory (relative to the static folder) joined with the file name.
   */
  lemma SaveImagePathLayout(filename: string, avatar: bool, year: nat, month: nat, day: nat)
    requires AllowedImage(filename) == Pass && |filename| > 0 && filename[0] != '/'
    ensures SaveImagePath(filename, avatar, year, month, day)
      == Ok(UploadSubdir(avatar, year, month, day) + "/" + filename)
  {
    WrittenFileLayout(filename, avatar, year, month, day);
    ClearPathFixedUnderStaticFolder(UploadSubdir(avatar, year, month, day) + "/" + filename);
  }

  /**
   * As written: an allowed, relative file name is stored as the upload
   * directory (relative to the static folder), a slash, and the file name
   * up to its first "static".
   */
  lemma SaveImagePathAsWrittenLayout(filename: string, avatar: bool, year: nat, month: nat, day: nat)
    requires AllowedImage(filename) == Pass && |filename| > 0 && filename[0] != '/'
    ensures SaveImagePathAsWritten(filename, avatar, year, month, day)
      == Ok(UploadSubdir(avatar, year, month, day) + "/" + BeforeStatic(filename))
  {
    WrittenFileLayout(filename, avatar, year, month, day);
    ClearPathUnderUploadDir(UploadSubdir(avatar, year, month, day), filename);
  }

  /** For a file name without "static", the program as written stores what the corrected one does. */
  lemma SaveImagePathsAgreeWithoutStatic(filename: string, avatar: bool, year: nat, month: nat, day: nat)
    requires AllowedImage(filename) == Pass && |filename| > 0 && filename[0] != '/'
    requires forall j: nat :: !OccursAt(filename, StaticWord, j)
    ensures SaveImagePathAsWritten(filename, avatar, year, month, day) == SaveImagePath(filename, avatar, year, month, day)
  {
    SaveImagePathAsWrittenLayout(filename, avatar, year, month, day);
    SaveImagePathLayout(filename, avatar, year, month, day);
  }

  lemma StaticPngIsAllowed()
    ensures AllowedImage("static.png") == Pass
    ensures OccursAt("static.png", StaticWord, 0)
  {
    assert "static.png"[7..] == "png";
    assert Lower("png") == "png";
    AllowedImageByLastDot("static.png", 6);
    assert "static.png"[..6] == StaticWord;
  }

  /** Where `save_image` writes a file, and what `clear_path` then sees. */
  lemma WrittenFileLayout(filename: string, avatar: bool, year: nat, month: nat, day: nat)
    requires |filename| > 0 && filename[0] != '/'
    ensures Join(UploadDir(avatar, year, month, day), filename)
      == "nginx/static/" + (UploadSubdir(avatar, year, month, day) + "/" + filename)
  {
    var sub := UploadSubdir(avatar, year, month, day);
    JoinUnderPrefix("nginx/static/", sub, filename);
    JoinRelative(sub, filename);
  }

  /**
   * As written, uploading an allowed file whose name begins with "static"
   * (such as "static.png") stores only the directory: the file name is lost.
   */
  lemma SaveImageAsWrittenLosesFileName(filename: string, avatar: bool, year: nat, month: nat, day: nat)
    requires AllowedImage(filename) == Pass && OccursAt(filename, StaticWord, 0)
    ensures SaveImagePathAsWritten(filename, avatar, year, month, day)
      == Ok(UploadSubdir(avatar, year, month, day) + "/")
  {
    assert filename[0] == filename[..6][0] == 's';
    FindIsFirst(filename, StaticWord, 0, 0);
    assert BeforeStatic(filename) == [];
    var sub := UploadSubdir(avatar, year, month, day);
    assert sub + "/" + [] == sub + "/";
    SaveImagePathAsWrittenLayout(filename, avatar, year, month, day);
  }

  // ---------------------------------------------------------------- delete_images

  /**
   * The folder `delete_images` passes to pruning, computed from the first
   * image only: "static" joined with its path minus the last "/" component
   * and then minus the last backslash component. Callers pass a non-empty list.
   */
  function PruneFolder(paths: seq<string>): (r: string)
    requires |paths| > 0
    ensures '/' !in paths[0] && '\\' !in paths[0] ==> r == Join("static", paths[0])
    ensures '/' !in paths[0] && '\\' in paths[0] ==>
      exists j :: LastAt(paths[0], '\\', j) && r == Join("static", paths[0][..j])
    ensures '/' in paths[0] ==>
      exists i :: LastAt(paths[0], '/', i)
        && ('\\' !in paths[0][..i] ==> r == Join("static", paths[0][..i]))
        && ('\\' in paths[0][..i] ==> exists j :: LastAt(paths[0][..i], '\\', j) && r == Join("static", paths[0][..j]))
  {
    CutAtLastSlash(paths[0]);
    Join("static", RSplitOnce(RSplitOnce(paths[0], '/')[0], '\\')[0])
  }

  /** The two `rsplit`s keep the path up to its last '/' and then up to its last backslash. */
  lemma CutAtLastSlash(s: string)
    ensures '/' !in s && '\\' !in s ==> RSplitOnce(RSplitOnce(s, '/')[0], '\\')[0] == s
    ensures '/' !in s && '\\' in s ==> var j := LastIndexOf(s, '\\').value;
      RSplitOnce(RSplitOnce(s, '/')[0], '\\')[0] == s[..j]
    ensures '/' in s ==> var i := LastIndexOf(s, '/').value;
      ('\\' !in s[..i] ==> RSplitOnce(RSplitOnce(s, '/')[0], '\\')[0] == s[..i])
      && ('\\' in s[..i] ==> var j := LastIndexOf(s[..i], '\\').value;
        j < i && RSplitOnce(RSplitOnce(s, '/')[0], '\\')[0] == s[..j])
  {
    if '/' in s {
      var i := LastIndexOf(s, '/').value;
      LastIsUnique(s, '/', i);
      if '\\' in s[..i] {
        var j := LastIndexOf(s[..i], '\\').value;
        LastIsUnique(s[..i], '\\', j);
        assert s[..i][..j] == s[..j];
      }
    } else if '\\' in s {
      var j := LastIndexOf(s, '\\').value;
      LastIsUnique(s, '\\', j);
    }
  }

  /** A Windows-style separator before the last '/' cuts the folder again. */
  lemma PruneFolderCutsAtBackslash()
    ensures PruneFolder(["a\\b/c"]) == "static/a"
  {
    var p := "a\\b/c";
    assert LastAt(p, '/', 3);
    LastIsUnique(p, '/', 3);
    assert p[..3] == "a\\b";
    assert LastAt(p[..3], '\\', 1);
    LastIsUnique(p[..3], '\\', 1);
    assert p[..3][..1] == "a";
  }

  /**
   * `os.path.join("static", img.path_media)` for each image `delete_images`
   * removes: the stored path below "static", or the path itself when absolute.
   */
  function RemovedFile(path: string): (r: string)
    ensures |path| > 0 && path[0] == '/' ==> r == path
    ensures !(|path| > 0 && path[0] == '/') ==> r == "static/" + path
  {
    Join("static", path)
  }

  /**
   * For a file stored as `dir` + "/" + `filename`, the folder pruned is `dir`
   * below "static"; in particular the upload directory of `save_image`.
   */
  lemma PruneFolderOfStoredImage(dir: string, filename: string, others: seq<string>)
    requires |dir| > 0 && dir[0] != '/' && '\\' !in dir && '/' !in filename
    ensures PruneFolder([dir + "/" + filename] + others) == "static" + "/" + dir
  {
    var p := dir + "/" + filename;
    assert p[|dir|] == '/' && p[|dir| + 1..] == filename;
    LastIsUnique(p, '/', |dir|);
    assert p[..|dir|] == dir;
    assert RSplitOnce(p, '/')[0] == dir;
    assert RSplitOnce(dir, '\\') == [dir];
    JoinRelative("static", dir);
  }
}

=== FILE: like_ledger.dfy ===
/**
 * `LikeService`: adding and removing the like of one user on one tweet.
 * The `likes` table has no unique constraint on (user, tweet); the only
 * guard is the lookup that runs before the insert, so "at most one like
 * per (user, tweet)" is an invariant of these operations.
 */
module LikeLedger {
  import opened Common
  import opened Models

  /** Has `user` liked `tweet`? */
  predicate Liked(likes: set<Like>, tweet: TweetId, user: UserId)
  {
    exists l :: l in likes && l.user == user && l.tweet == tweet
  }

  /** The two tables agree on everything but the likes and their counter. */
  predicate SameExceptLikes(a: Tables, b: Tables)
  {
    a.(likes := b.likes, nextLike := b.nextLike) == b
  }

  /**
   * `check_like_tweet`: the like row of `user` on `tweet`, if any. The
   * query expects at most one row, which `LikesUnique` guarantees.
   */
  function CheckLikeTweet(db: Tables, tweet: TweetId, user: UserId): (r: Option<Like>)
    requires LikesUnique(db.likes)
    ensures r.None? <==> !Liked(db.likes, tweet, user)
    ensures r.Some? ==> r.value in db.likes && r.value.user == user && r.value.tweet == tweet
  {
    if Liked(db.likes, tweet, user) then
      Some(var l :| l in db.likes && l.user == user && l.tweet == tweet; l)
    else None
  }

  /** `like`: no ownership check, so an author may like their own tweet. */
  function LikeTweet(db: Tables, tweet: TweetId, user: UserId): (r: Result<Tables>)
    requires LikesUnique(db.likes) && LikeIdsBelowNext(db)
    ensures tweet !in db.tweets ==> r == Err(NotFound)
    ensures tweet in db.tweets && Liked(db.likes, tweet, user) ==> r == Err(Locked)
    ensures r.Ok? <==> tweet in db.tweets && !Liked(db.likes, tweet, user)
    ensures r.Ok? ==> SameExceptLikes(db, r.value) && r.value.nextLike == db.nextLike + 1
    ensures r.Ok? ==> r.value.likes == db.likes + {Like(db.nextLike, user, tweet)}
    ensures r.Ok? ==> Liked(r.value.likes, tweet, user) && |r.value.likes| == |db.likes| + 1
    ensures r.Ok? ==> LikesUnique(r.value.likes) && LikeIdsBelowNext(r.value)
  {
    if GetTweet(db, tweet).None? then Err(NotFound)
    else if CheckLikeTweet(db, tweet, user).Some? then Err(Locked)
    else
      var row := Like(db.nextLike, user, tweet);
      assert row !in db.likes;
      Ok(db.(likes := db.likes + {row}, nextLike := db.nextLike + 1))
  }

  /** `dislike`: removes exactly the one like row of `user` on `tweet`. */
  function Dislike(db: Tables, tweet: TweetId, user: UserId): (r: Result<Tables>)
    requires LikesUnique(db.likes)
    ensures tweet !in db.tweets ==> r == Err(NotFound)
    ensures tweet in db.tweets && !Liked(db.likes, tweet, user) ==> r == Err(Locked)
    ensures r.Ok? <==> tweet in db.tweets && Liked(db.likes, tweet, user)
    ensures r.Ok? ==> SameExceptLikes(db, r.value) && r.value.nextLike == db.nextLike
    ensures r.Ok? ==> !Liked(r.value.likes, tweet, user) && r.value.likes <= db.likes
    ensures r.Ok? ==> |r.value.likes| == |db.likes| - 1
    ensures r.Ok? ==> forall l :: l in db.likes && l !in r.value.likes ==> l.user == user && l.tweet == tweet
  {
    if GetTweet(db, tweet).None? then Err(NotFound)
    else
      var found := CheckLikeTweet(db, tweet, user);
      if found.None? then Err(Locked)
      else Ok(db.(likes := db.likes - {found.value}))
  }

  /** A like keeps the invariant, in particular at most one like per (user, tweet). */
  lemma LikeKeepsValid(db: Tables, tweet: TweetId, user: UserId)
    requires Valid(db) && user in db.users
    requires LikeTweet(db, tweet, user).Ok?
    ensures Valid(LikeTweet(db, tweet, user).value)
  {
  }

  /** A dislike keeps the invariant. */
  lemma DislikeKeepsValid(db: Tables, tweet: TweetId, user: UserId)
    requires Valid(db)
    requires Dislike(db, tweet, user).Ok?
    ensures Valid(Dislike(db, tweet, user).value)
  {
  }

  /** Like followed by dislike restores the likes table; only the id counter has moved on. */
  lemma LikeThenDislike(db: Tables, tweet: TweetId, user: UserId)
    requires LikesUnique(db.likes) && LikeIdsBelowNext(db)
    requires LikeTweet(db, tweet, user).Ok?
    ensures Dislike(LikeTweet(db, tweet, user).value, tweet, user) == Ok(db.(nextLike := db.nextLike + 1))
  {
    var row := Like(db.nextLike, user, tweet);
    var after := LikeTweet(db, tweet, user).value;
    assert CheckLikeTweet(after, tweet, user) == Some(row);
    assert after.likes - {row} == db.likes;
  }

  /** Liking the same tweet twice: the second attempt fails with 423. */
  lemma LikeTwiceIsLocked(db: Tables, tweet: TweetId, user: UserId)
    requires LikesUnique(db.likes) && LikeIdsBelowNext(db)
    requires LikeTweet(db, tweet, user).Ok?
    ensures LikeTweet(LikeTweet(db, tweet, user).value, tweet, user) == Err(Locked)
  {
  }

  /** Disliking twice: the second attempt fails with 423 ("not liked yet"). */
  lemma DislikeTwiceIsLocked(db: Tables, tweet: TweetId, user: UserId)
    requires LikesUnique(db.likes)
    requires Dislike(db, tweet, user).Ok?
    ensures
      var after := Dislike(db, tweet, user).value;
      LikesUnique(after.likes) && Dislike(after, tweet, user) == Err(Locked)
  {
  }
}

=== FILE: media.dfy ===
/**
 * `ImageService`: image rows are stored unbound on upload, bound to a
 * tweet when the tweet is created, listed per tweet and, when a tweet
 * goes, their files are removed and the upload folder is pruned.
 */
module Media {
  import opened Common
  import opened Models
  import opened Seqs
  import opened ImagePaths
  import opened Schemas

  /** The two tables agree on everything but the images and their counter. */
  predicate SameExceptImages(a: Tables, b: Tables)
  {
    a.(images := b.images, nextImage := b.nextImage) == b
  }

  /** Is image `id` bound to `tweet`? */
  predicate BoundTo(images: map<ImageId, Image>, id: ImageId, tweet: TweetId)
  {
    id in images && images[id].tweet == Some(tweet)
  }

  /**
   * `save_image` of the service: stores the path the upload produced as a
   * new unbound image and returns its id. A failed upload (422 for a
   * refused extension, 500 otherwise) stores nothing.
   */
  function SaveImage(db: Tables, upload: Result<string>): (r: Result<(Tables, ImageId)>)
    requires ImageIdsBelowNext(db)
    ensures upload.Err? ==> r == Err(upload.error)
    ensures r.Ok? <==> upload.Ok?
    ensures r.Ok? ==> r.value.1 == db.nextImage && r.value.1 !in db.images
    ensures r.Ok? ==> SameExceptImages(db, r.value.0) && r.value.0.nextImage == db.nextImage + 1
    ensures r.Ok? ==> r.value.0.images.Keys == db.images.Keys + {r.value.1}
    ensures r.Ok? ==> r.value.0.images[r.value.1] == Image(upload.value, None)
    ensures r.Ok? ==> forall id :: id in db.images ==> r.value.0.images[id] == db.images[id]
  {
    match upload
    case Err(e) => Err(e)
    case Ok(path) =>
      var id := db.nextImage;
      Ok((db.(images := db.images[id := Image(path, None)], nextImage := id + 1), id))
  }

  /**
   * `update_images`: every existing image whose id is listed is bound to
   * `tweet`, whatever it was bound to before; unknown ids are ignored.
   */
  function UpdateImages(images: map<ImageId, Image>, ids: seq<ImageId>, tweet: TweetId): (r: map<ImageId, Image>)
    ensures r.Keys == images.Keys
    ensures forall id :: id in images && id in ids ==> r[id] == Image(images[id].path, Some(tweet))
    ensures forall id :: id in images && id !in ids ==> r[id] == images[id]
  {
    map id | id in images :: if id in ids then images[id].(tweet := Some(tweet)) else images[id]
  }

  /** Binding images to an existing tweet keeps the invariant: the foreign key has a target. */
  lemma UpdateImagesKeepsValid(db: Tables, ids: seq<ImageId>, tweet: TweetId)
    requires Valid(db) && tweet in db.tweets
    ensures Valid(db.(images := UpdateImages(db.images, ids, tweet)))
  {
  }

  /** `get_images`: the ids of the images bound to `tweet`, in id order. */
  function GetImages(db: Tables, tweet: TweetId): (r: seq<ImageId>)
    requires ImageIdsBelowNext(db)
    ensures forall id :: id in r <==> BoundTo(db.images, id, tweet)
    ensures forall i :: 0 <= i < |r| ==> r[i] in db.images
    ensures Increasing(r)
  {
    var r := Below(db.nextImage, (id: nat) => BoundTo(db.images, id, tweet));
    assert forall i :: 0 <= i < |r| ==> r[i] in db.images by {
      forall i | 0 <= i < |r| ensures r[i] in db.images {
        assert r[i] in r;
      }
    }
    r
  }

  /** The files to remove and the folder to prune when a tweet's images go. */
  datatype Cleanup = Cleanup(removed: seq<string>, pruned: Option<string>)

  /**
   * `delete_images`: nothing when the tweet has no image; otherwise the
   * file of every image is removed and the folder of the first one is
   * pruned.
   */
  function DeleteImages(db: Tables, tweet: TweetId): (r: Cleanup)
    requires ImageIdsBelowNext(db)
    ensures r.pruned.None? <==> r.removed == []
    ensures r.removed == [] <==> forall id :: !BoundTo(db.images, id, tweet)
    ensures |r.removed| == |GetImages(db, tweet)|
    ensures forall i :: 0 <= i < |r.removed| ==>
      r.removed[i] == RemovedFile(db.images[GetImages(db, tweet)[i]].path)
  {
    var ids := GetImages(db, tweet);
    if ids == [] then Cleanup([], None)
    else
      assert ids[0] in ids;
      var rows := seq(|ids|, k requires 0 <= k < |ids| => db.images[ids[k]]);
      var paths := PathsOf(rows);
      assert forall i :: 0 <= i < |ids| ==> paths[i] == db.images[ids[i]].path;
      Cleanup(seq(|paths|, i requires 0 <= i < |paths| => RemovedFile(paths[i])), Some(PruneFolder(paths)))
  }

  /** The files removed are exactly those of the images bound to the tweet. */
  lemma DeleteImagesRemovesBoundFiles(db: Tables, tweet: TweetId, file: string)
    requires ImageIdsBelowNext(db)
    ensures file in DeleteImages(db, tweet).removed
      <==> exists id :: BoundTo(db.images, id, tweet) && file == RemovedFile(db.images[id].path)
  {
    var ids := GetImages(db, tweet);
    var removed := DeleteImages(db, tweet).removed;
    if file in removed {
      var i :| 0 <= i < |removed| && removed[i] == file;
      assert ids[i] in ids;
    }
    if id :| BoundTo(db.images, id, tweet) && file == RemovedFile(db.images[id].path) {
      var i :| 0 <= i < |ids| && ids[i] == id;
      assert removed[i] == file;
    }
  }

  /** The pruned folder is that of the bound image with the smallest id. */
  lemma DeleteImagesPrunesFirstFolder(db: Tables, tweet: TweetId, first: ImageId)
    requires ImageIdsBelowNext(db)
    requires BoundTo(db.images, first, tweet)
    requires forall id :: BoundTo(db.images, id, tweet) ==> first <= id
    ensures DeleteImages(db, tweet).pruned == Some(PruneFolder([db.images[first].path]))
  {
    var ids := GetImages(db, tweet);
    assert ids[0] in ids;
    var i :| 0 <= i < |ids| && ids[i] == first;
  }

  /** A saved image is bound to no tweet, so no tweet's image list changes. */
  lemma SaveImageLeavesTweetsAlone(db: Tables, upload: Result<string>, tweet: TweetId)
    requires ImageIdsBelowNext(db)
    requires SaveImage(db, upload).Ok?
    ensures ImageIdsBelowNext(SaveImage(db, upload).value.0)
    ensures GetImages(SaveImage(db, upload).value.0, tweet) == GetImages(db, tweet)
  {
    var after := SaveImage(db, upload).value.0;
    BelowAgree(db.nextImage, (id: nat) => BoundTo(after.images, id, tweet), (id: nat) => BoundTo(db.images, id, tweet));
  }

  /** An image row keeps the invariant when saved. */
  lemma SaveImageKeepsValid(db: Tables, upload: Result<string>)
    requires Valid(db)
    requires SaveImage(db, upload).Ok?
    ensures Valid(SaveImage(db, upload).value.0)
  {
  }
}

=== FILE: models.dfy ===
/**
 * The tables of the relational schema (`users`, `user_to_user`, `tweets`,
 * `likes`, `images`) as one immutable value, with the invariant that the
 * keys, foreign keys and service checks keep between two service calls.
 */
module Models {
  import opened Common

  type UserId = nat
  type TweetId = nat
  type LikeId = nat
  type ImageId = nat

  /** `String(280)` on `tweet_data`. */
  const MaxTweetLength: nat := 280

  /** A row of `user_to_user`: `follower` follows `following`. */
  datatype Edge = Edge(follower: UserId, following: UserId)

  /** A row of `tweets`; `createdAt` is the insertion time. */
  datatype Tweet = Tweet(text: string, owner: UserId, createdAt: int)

  /** A row of `likes`; `id` is its primary key. */
  datatype Like = Like(id: LikeId, user: UserId, tweet: TweetId)

  /** A row of `images`; `tweet` is the nullable `tweet_id`. */
  datatype Image = Image(path: string, tweet: Option<TweetId>)

  /**
   * The database. `users` maps each id to its username; each `next*` is the
   * next value of an autoincrement key, so ids are never reused.
   */
  datatype Tables = Tables(
    users: map<UserId, string>,
    follows: set<Edge>,
    tweets: map<TweetId, Tweet>,
    likes: set<Like>,
    images: map<ImageId, Image>,
    nextTweet: TweetId,
    nextLike: LikeId,
    nextImage: ImageId)

  /** `username` is unique. */
  ghost predicate UsernamesUnique(users: map<UserId, string>)
  {
    forall a, b :: a in users && b in users && users[a] == users[b] ==> a == b
  }

  /** Both ends of an edge exist, and nobody follows themself. */
  ghost predicate FollowsWellFormed(db: Tables)
  {
    forall e :: e in db.follows ==>
      e.follower in db.users && e.following in db.users && e.follower != e.following
  }

  /**
   * Autoincrement keys: every id is below the table's next value. Operations
   * that only allocate ids need these alone, without the rest of `Valid`.
   */
  ghost predicate TweetIdsBelowNext(db: Tables)
  {
    forall id :: id in db.tweets ==> id < db.nextTweet
  }

  ghost predicate LikeIdsBelowNext(db: Tables)
  {
    forall l :: l in db.likes ==> l.id < db.nextLike
  }

  ghost predicate ImageIdsBelowNext(db: Tables)
  {
    forall id :: id in db.images ==> id < db.nextImage
  }

  /** Tweet ids are autoincrement keys; every tweet has an existing owner and at most 280 characters. */
  ghost predicate TweetsWellFormed(db: Tables)
  {
    && TweetIdsBelowNext(db)
    && forall id :: id in db.tweets ==> db.tweets[id].owner in db.users && |db.tweets[id].text| <= MaxTweetLength
  }

  /** Like ids are an autoincrement primary key, and every like refers to an existing user and tweet. */
  ghost predicate LikesWellFormed(db: Tables)
  {
    && LikeIdsBelowNext(db)
    && (forall l :: l in db.likes ==> l.user in db.users && l.tweet in db.tweets)
    && (forall a, b :: a in db.likes && b in db.likes && a.id == b.id ==> a == b)
  }

  /** At most one like per (user, tweet): two like rows with the same pair are one row. */
  ghost predicate LikesUnique(likes: set<Like>)
  {
    forall a, b :: a in likes && b in likes && a.user == b.user && a.tweet == b.tweet ==> a == b
  }

  /** Image ids are autoincrement keys, and a bound image refers to an existing tweet. */
  ghost predicate ImagesWellFormed(db: Tables)
  {
    && ImageIdsBelowNext(db)
    && forall id :: id in db.images && db.images[id].tweet.Some? ==> db.images[id].tweet.value in db.tweets
  }

  /**
   * The invariant between two service calls: the schema's keys, foreign
   * keys, `String(280)` and unique `username`, plus the two rules only the
   * services enforce (no self-follow, one like per user and tweet).
   */
  ghost predicate Valid(db: Tables)
  {
    && UsernamesUnique(db.users)
    && FollowsWellFormed(db)
    && TweetsWellFormed(db)
    && LikesWellFormed(db)
    && LikesUnique(db.likes)
    && ImagesWellFormed(db)
  }

  /** A transaction: on success its new tables, on failure the tables it started from. */
  function Commit(db: Tables, r: Result<Tables>): Tables
  {
    if r.Ok? then r.value else db
  }

  /** `User.following`: the users `u` follows, one per `user_to_user` row with `u` as follower. */
  function Following(db: Tables, u: UserId): (r: set<UserId>)
    ensures forall v :: v in r <==> Edge(u, v) in db.follows
  {
    set e | e in db.follows && e.follower == u :: e.following
  }

  /** `User.followers`, the backref of `following`: exactly its inverse relation. */
  function Followers(db: Tables, u: UserId): (r: set<UserId>)
    ensures forall v :: v in r <==> u in Following(db, v)
  {
    set e | e in db.follows && e.following == u :: e.follower
  }

  /** `check_user_for_id`: is the requested id the acting user's own? */
  predicate CheckUserForId(currentId: UserId, userId: UserId)
    ensures CheckUserForId(currentId, userId) <==> currentId == userId
  {
    currentId == userId
  }

  /** A user with both relation collections loaded. */
  datatype UserView = UserView(id: UserId, username: string, following: set<UserId>, followers: set<UserId>)

  /** `get_user_for_id`: the user with `following` and `followers`, or none. */
  function GetUserForId(db: Tables, id: UserId): (r: Option<UserView>)
    ensures r.Some? <==> id in db.users
    ensures r.Some? ==> r.value.id == id && r.value.username == db.users[id]
    ensures r.Some? ==> r.value.following == Following(db, id) && r.value.followers == Followers(db, id)
    ensures r.Some? ==> forall v :: v in r.value.following <==> id in Followers(db, v)
    ensures r.Some? ==> forall v :: v in r.value.followers <==> Edge(v, id) in db.follows
    ensures r.Some? && Valid(db) ==> id !in r.value.following && id !in r.value.followers
  {
    if id in db.users then Some(UserView(id, db.users[id], Following(db, id), Followers(db, id)))
    else None
  }

  /** `get_tweet`: the tweet with this primary key, or none. */
  function GetTweet(db: Tables, id: TweetId): (r: Option<Tweet>)
    ensures r.Some? <==> id in db.tweets
    ensures r.Some? ==> r.value == db.tweets[id]
  {
    if id in db.tweets then Some(db.tweets[id]) else None
  }

  /** The tweets of `u`, which the ORM deletes together with `u`. */
  function TweetsOf(db: Tables, u: UserId): set<TweetId>
  {
    set id | id in db.tweets && db.tweets[id].owner == u
  }

  /**
   * Deleting a user: the `tweets` and `likes` relationships cascade
   * (delete-orphan), each deleted tweet cascades to its images and likes,
   * and the association rows of `following` and `followers` go too.
   */
  function DeleteUser(db: Tables, u: UserId): (r: Tables)
    ensures r.users.Keys == db.users.Keys - {u}
    ensures forall k :: k in r.users ==> r.users[k] == db.users[k]
    ensures forall id :: id in r.tweets <==> id in db.tweets && db.tweets[id].owner != u
    ensures forall id :: id in r.tweets ==> r.tweets[id] == db.tweets[id]
    ensures forall l :: l in r.likes <==> l in db.likes && l.user != u && l.tweet !in TweetsOf(db, u)
    ensures forall e :: e in r.follows <==> e in db.follows && e.follower != u && e.following != u
    ensures forall id :: id in r.images <==>
      id in db.images && !(db.images[id].tweet.Some? && db.images[id].tweet.value in TweetsOf(db, u))
    ensures forall id :: id in r.images ==> r.images[id] == db.images[id]
    ensures r.nextTweet == db.nextTweet && r.nextLike == db.nextLike && r.nextImage == db.nextImage
  {
    var gone := TweetsOf(db, u);
    db.(users := db.users - {u},
        follows := (set e | e in db.follows && e.follower != u && e.following != u),
        tweets := (map id | id in db.tweets && id !in gone :: db.tweets[id]),
        likes := (set l | l in db.likes && l.user != u && l.tweet !in gone),
        images := (map id | id in db.images && !(db.images[id].tweet.Some? && db.images[id].tweet.value in gone)
                          :: db.images[id]))
  }

  /** Deleting a user keeps every key, foreign key and uniqueness rule. */
  lemma DeleteUserKeepsValid(db: Tables, u: UserId)
    requires Valid(db) && u in db.users
    ensures Valid(DeleteUser(db, u))
  {
    var r := DeleteUser(db, u);
    assert UsernamesUnique(r.users);
    assert FollowsWellFormed(r);
    assert TweetsWellFormed(r);
    forall l | l in r.likes
      ensures l.id < r.nextLike && l.user in r.users && l.tweet in r.tweets
    {
      assert l.tweet !in TweetsOf(db, u);
      assert db.tweets[l.tweet].owner != u;
    }
    assert LikesWellFormed(r);
    assert LikesUnique(r.likes);
    forall id | id in r.images
      ensures id < r.nextImage && (r.images[id].tweet.Some? ==> r.images[id].tweet.value in r.tweets)
    {
      if r.images[id].tweet.Some? {
        var t := db.images[id].tweet.value;
        assert t !in TweetsOf(db, u);
        assert db.tweets[t].owner != u;
      }
    }
    assert ImagesWellFormed(r);
  }
}

=== FILE: schemas.dfy ===
/**
 * The validators of the request and response schemas: the tweet length
 * check on input, and on output a like rendered as its user and an image
 * list rendered as its paths.
 */
module Schemas {
  import opened Common
  import opened Models

  /** `check_len_tweet_data`: at most 280 characters pass unchanged; longer text is refused with 422. */
  function CheckLenTweetData(val: string): (r: Result<string>)
    ensures r.Ok? <==> |val| <= MaxTweetLength
    ensures r.Ok? ==> r.value == val
    ensures r.Err? ==> r.error == Invalid
  {
    if |val| > MaxTweetLength then Err(Invalid) else Ok(val)
  }

  /** The boundary: exactly 280 characters pass, 281 do not. */
  lemma CheckLenTweetDataBoundary(val: string)
    ensures |val| == MaxTweetLength ==> CheckLenTweetData(val) == Ok(val)
    ensures |val| == MaxTweetLength + 1 ==> CheckLenTweetData(val) == Err(Invalid)
  {
  }

  /** `UserSchema` (an author) and `LikeSchema` (a like): a user id and a name. */
  datatype UserOut = UserOut(id: UserId, name: string)

  /** `extract_user`: a like is rendered as the user who gave it, not as the like row. */
  function ExtractUser(users: map<UserId, string>, like: Like): (r: UserOut)
    requires like.user in users
    ensures r.id == like.user && r.name == users[like.user]
  {
    UserOut(like.user, users[like.user])
  }

  /** What `serialize_images` receives: a list of image rows, or any other value. */
  datatype ImagesIn<T> = ImageRows(rows: seq<Image>) | NotAList(other: T)

  /** What it returns: the list of paths, or the other value unchanged. */
  datatype ImagesOut<T> = PathList(paths: seq<string>) | Unchanged(other: T)

  function PathsOf(rows: seq<Image>): (r: seq<string>)
    ensures |r| == |rows|
    ensures forall i :: 0 <= i < |rows| ==> r[i] == rows[i].path
  {
    if rows == [] then [] else [rows[0].path] + PathsOf(rows[1..])
  }

  /** `serialize_images`: a list becomes the list of its paths, in order; anything else passes. */
  function SerializeImages<T>(val: ImagesIn<T>): (r: ImagesOut<T>)
    ensures val.ImageRows? <==> r.PathList?
    ensures val.ImageRows? ==> |r.paths| == |val.rows|
    ensures val.ImageRows? ==> forall i :: 0 <= i < |val.rows| ==> r.paths[i] == val.rows[i].path
    ensures val.NotAList? ==> r == Unchanged(val.other)
  {
    match val
    case ImageRows(rows) => PathList(PathsOf(rows))
    case NotAList(other) => Unchanged(other)
  }
}

=== FILE: seqs.dfy ===
/** Turning the rows of a table into an ordered list. */
module Seqs {

  /** Strictly increasing, hence free of duplicates. */
  predicate Increasing(s: seq<nat>)
  {
    forall i, j :: 0 <= i < j < |s| ==> s[i] < s[j]
  }

  predicate NoDuplicates<T(==)>(s: seq<T>)
  {
    forall i, j :: 0 <= i < j < |s| ==> s[i] != s[j]
  }

  /**
   * The ids below `n` that satisfy `p`, in increasing order: a table scan
   * over an autoincrement key that never goes beyond `n`.
   */
  function Below(n: nat, p: nat -> bool): (r: seq<nat>)
    ensures forall x: nat :: x in r <==> x < n && p(x)
    ensures Increasing(r)
  {
    if n == 0 then []
    else
      var prefix := Below(n - 1, p);
      assert forall i :: 0 <= i < |prefix| ==> prefix[i] < n - 1 by {
        forall i | 0 <= i < |prefix| ensures prefix[i] < n - 1 {
          assert prefix[i] in prefix;
        }
      }
      prefix + (if p(n - 1) then [n - 1] else [])
  }

  /** The scan depends only on the predicate below `n`. */
  lemma {:induction false} BelowAgree(n: nat, p: nat -> bool, q: nat -> bool)
    requires forall x: nat :: x < n ==> p(x) == q(x)
    ensures Below(n, p) == Below(n, q)
  {
    if n > 0 {
      BelowAgree(n - 1, p, q);
    }
  }

  /** A scan whose predicate holds nowhere below `n` finds nothing. */
  lemma {:induction false} BelowNone(n: nat, p: nat -> bool)
    requires forall x: nat :: x < n ==> !p(x)
    ensures Below(n, p) == []
  {
    if n > 0 {
      BelowNone(n - 1, p);
    }
  }
}

=== FILE: store.dfy ===
/**
 * The database behind the services as mutable state: one field per table
 * and counter. Each service method runs its checks, changes the tables
 * only when they all pass, and ends in the state its specification
 * function describes, keeping the invariant.
 */
module Storage {
  import opened Common
  import opened Models
  import opened FollowLedger
  import opened LikeLedger
  import opened Media
  import opened Tweets

  /** The status a service call answers with: success, or its error. */
  function OutcomeOf<T>(r: Result<T>): (o: Outcome)
    ensures o == Pass <==> r.Ok?
    ensures r.Err? ==> o == Fail(r.error)
  {
    match r
    case Ok(_) => Pass
    case Err(e) => Fail(e)
  }

  /** Binding the listed images one id at a time gives the same table as binding them all at once. */
  lemma UpdateImagesStep(images: map<ImageId, Image>, ids: seq<ImageId>, i: nat, tweet: TweetId)
    requires i < |ids|
    ensures UpdateImages(images, ids[..i + 1], tweet)
      == (if ids[i] in images
          then UpdateImages(images, ids[..i], tweet)[ids[i] := images[ids[i]].(tweet := Some(tweet))]
          else UpdateImages(images, ids[..i], tweet))
  {
    assert ids[..i + 1] == ids[..i] + [ids[i]];
  }

  class Store {
    var users: map<UserId, string>
    var follows: set<Edge>
    var tweets: map<TweetId, Tweet>
    var likes: set<Like>
    var images: map<ImageId, Image>
    var nextTweet: TweetId
    var nextLike: LikeId
    var nextImage: ImageId

    /** The tables as one value. */
    function Snapshot(): Tables
      reads this
    {
      Tables(users, follows, tweets, likes, images, nextTweet, nextLike, nextImage)
    }

    ghost predicate Valid()
      reads this
    {
      Models.Valid(Snapshot())
    }

    /** An empty database with the given users. */
    constructor (users: map<UserId, string>)
      requires UsernamesUnique(users)
      ensures Snapshot() == Tables(users, {}, map[], {}, map[], 0, 0, 0)
      ensures Valid()
    {
      this.users := users;
      follows := {};
      tweets := map[];
      likes := {};
      images := map[];
      nextTweet := 0;
      nextLike := 0;
      nextImage := 0;
    }

    /** `FollowerService.create_follower`. */
    method CreateFollower(current: UserId, target: UserId) returns (r: Outcome)
      requires Valid() && current in users
      modifies this
      ensures Valid()
      ensures r == OutcomeOf(Follow(old(Snapshot()), current, target))
      ensures Snapshot() == Commit(old(Snapshot()), Follow(old(Snapshot()), current, target))
    {
      ghost var before := Snapshot();
      if current == target {
        return Fail(Invalid);
      }
      if target !in users {
        return Fail(NotFound);
      }
      if CheckFollower(Snapshot(), current, target) {
        return Fail(Locked);
      }
      follows := follows + {Edge(current, target)};
      FollowKeepsValid(before, current, target);
      return Pass;
    }

    /** `FollowerService.delete_follower`. */
    method DeleteFollower(current: UserId, target: UserId) returns (r: Outcome)
      requires Valid()
      modifies this
      ensures Valid()
      ensures r == OutcomeOf(Unfollow(old(Snapshot()), current, target))
      ensures Snapshot() == Commit(old(Snapshot()), Unfollow(old(Snapshot()), current, target))
    {
      ghost var before := Snapshot();
      if current == target {
        return Fail(Invalid);
      }
      if target !in users {
        return Fail(NotFound);
      }
      if !CheckFollower(Snapshot(), current, target) {
        return Fail(Locked);
      }
      follows := follows - {Edge(current, target)};
      UnfollowKeepsValid(before, current, target);
      return Pass;
    }

    /** `LikeService.like`. */
    method Like(tweet: TweetId, user: UserId) returns (r: Outcome)
      requires Valid() && user in users
      modifies this
      ensures Valid()
      ensures r == OutcomeOf(LikeTweet(old(Snapshot()), tweet, user))
      ensures Snapshot() == Commit(old(Snapshot()), LikeTweet(old(Snapshot()), tweet, user))
    {
      ghost var before := Snapshot();
      if tweet !in tweets {
        return Fail(NotFound);
      }
      if CheckLikeTweet(Snapshot(), tweet, user).Some? {
        return Fail(Locked);
      }
      ghost var after := LikeTweet(before, tweet, user).value;
      likes := likes + {Models.Like(nextLike, user, tweet)};
      nextLike := nextLike + 1;
      assert Snapshot() == after;
      LikeKeepsValid(before, tweet, user);
      return Pass;
    }

    /** `LikeService.dislike`. */
    method Dislike(tweet: TweetId, user: UserId) returns (r: Outcome)
      requires Valid()
      modifies this
      ensures Valid()
      ensures r == OutcomeOf(LikeLedger.Dislike(old(Snapshot()), tweet, user))
      ensures Snapshot() == Commit(old(Snapshot()), LikeLedger.Dislike(old(Snapshot()), tweet, user))
    {
      ghost var before := Snapshot();
      if tweet !in tweets {
        return Fail(NotFound);
      }
      var found := CheckLikeTweet(Snapshot(), tweet, user);
      if found.None? {
        return Fail(Locked);
      }
      likes := likes - {found.value};
      DislikeKeepsValid(before, tweet, user);
      return Pass;
    }

    /** `ImageService.save_image`: returns the new image's id. */
    method SaveImage(upload: Result<string>) returns (r: Result<ImageId>)
      requires Valid()
      modifies this
      ensures Valid()
      ensures old(Media.SaveImage(Snapshot(), upload)).Ok? <==> r.Ok?
      ensures r.Err? ==> r.error == upload.error && Snapshot() == old(Snapshot())
      ensures r.Ok? ==> (Snapshot(), r.value) == old(Media.SaveImage(Snapshot(), upload)).value
    {
      ghost var before := Snapshot();
      if upload.Err? {
        return Err(upload.error);
      }
      var id := nextImage;
      images := images[id := Image(upload.value, None)];
      nextImage := nextImage + 1;
      SaveImageKeepsValid(before, upload);
      return Ok(id);
    }

    /** `ImageService.update_images`, one listed id at a time. */
    method UpdateImages(ids: seq<ImageId>, tweet: TweetId)
      requires Valid() && tweet in tweets
      modifies this
      ensures Valid()
      ensures images == Media.UpdateImages(old(images), ids, tweet)
      ensures Snapshot() == old(Snapshot()).(images := images)
    {
      ghost var before := images;
      var i := 0;
      while i < |ids|
        invariant 0 <= i <= |ids|
        invariant images == Media.UpdateImages(before, ids[..i], tweet)
        invariant Snapshot() == old(Snapshot()).(images := images)
      {
        UpdateImagesStep(before, ids, i, tweet);
        if ids[i] in images {
          images := images[ids[i] := images[ids[i]].(tweet := Some(tweet))];
        }
        i := i + 1;
      }
      assert ids[..|ids|] == ids;
      Media.UpdateImagesKeepsValid(old(Snapshot()), ids, tweet);
    }

    /** `TweetsService.create_tweet`: returns the new tweet's id. */
    method CreateTweet(current: UserId, text: string, mediaIds: Option<seq<ImageId>>, now: int) returns (id: TweetId)
      requires Valid() && current in users && |text| <= MaxTweetLength
      modifies this
      ensures Valid()
      ensures (Snapshot(), id) == Tweets.CreateTweet(old(Snapshot()), current, text, mediaIds, now)
    {
      ghost var before := Snapshot();
      id := nextTweet;
      tweets := tweets[id := Tweet(text, current, now)];
      nextTweet := nextTweet + 1;
      if mediaIds.Some? && mediaIds.value != [] {
        CreateTweetKeepsValid(before, current, text, None, now);
        assert Snapshot() == Tweets.CreateTweet(before, current, text, None, now).0;
        UpdateImages(mediaIds.value, id);
      }
      CreateTweetKeepsValid(before, current, text, mediaIds, now);
    }

    /**
     * `TweetsService.delete_tweet`: besides the status, the files to
     * remove and the folder to prune, which `delete_images` works out
     * before the rows go.
     */
    method DeleteTweet(user: UserId, id: TweetId) returns (r: Outcome, cleanup: Cleanup)
      requires Valid()
      modifies this
      ensures Valid()
      ensures r == OutcomeOf(Tweets.DeleteTweet(old(Snapshot()), user, id))
      ensures Snapshot() == Commit(old(Snapshot()), Tweets.DeleteTweet(old(Snapshot()), user, id))
      ensures cleanup == if r == Pass then DeleteImages(old(Snapshot()), id) else Cleanup([], None)
    {
      ghost var before := Snapshot();
      if id !in tweets {
        return Fail(NotFound), Cleanup([], None);
      }
      if tweets[id].owner != user {
        return Fail(Locked), Cleanup([], None);
      }
      cleanup := DeleteImages(Snapshot(), id);
      ghost var after := Tweets.DeleteTweet(before, user, id).value;
      images := map img | img in images && !BoundTo(images, img, id) :: images[img];
      likes := set l | l in likes && l.tweet != id;
      tweets := tweets - {id};
      assert Snapshot() == after;
      DeleteTweetKeepsValid(before, user, id);
      r := Pass;
    }
  }
}

=== FILE: tweets.dfy ===
/**
 * `TweetsService.create_tweet` and `delete_tweet`: a new tweet takes the
 * next id and claims the listed images; deleting a tweet is reserved to
 * its author and takes its likes and images with it.
 */
module Tweets {
  import opened Common
  import opened Models
  import opened Seqs
  import opened Media

  /**
   * `create_tweet`: the new tweet gets the next id, the acting user as
   * owner and `now` as creation time; when a non-empty id list is given,
   * the listed images are bound to it. Returns the tables and the new id.
   */
  function CreateTweet(db: Tables, current: UserId, text: string, mediaIds: Option<seq<ImageId>>, now: int)
    : (r: (Tables, TweetId))
    ensures r.1 == db.nextTweet && r.0.nextTweet == db.nextTweet + 1
    ensures TweetIdsBelowNext(db) ==> r.1 !in db.tweets
    ensures r.0.tweets.Keys == db.tweets.Keys + {r.1} && r.0.tweets[r.1] == Tweet(text, current, now)
    ensures forall id :: id in db.tweets && id != r.1 ==> r.0.tweets[id] == db.tweets[id]
    ensures mediaIds.None? || mediaIds.value == [] ==> r.0.images == db.images
    ensures mediaIds.Some? ==> r.0.images == UpdateImages(db.images, mediaIds.value, r.1)
    ensures r.0.users == db.users && r.0.follows == db.follows && r.0.likes == db.likes
    ensures r.0.nextLike == db.nextLike && r.0.nextImage == db.nextImage
  {
    var id := db.nextTweet;
    var added := db.(tweets := db.tweets[id := Tweet(text, current, now)], nextTweet := id + 1);
    if mediaIds.Some? && mediaIds.value != [] then
      (added.(images := UpdateImages(db.images, mediaIds.value, id)), id)
    else
      assert mediaIds.Some? ==> UpdateImages(db.images, mediaIds.value, id) == db.images;
      (added, id)
  }

  /** A new tweet of an existing user, with text the schema accepted, keeps the invariant. */
  lemma CreateTweetKeepsValid(db: Tables, current: UserId, text: string, mediaIds: Option<seq<ImageId>>, now: int)
    requires Valid(db) && current in db.users && |text| <= MaxTweetLength
    ensures Valid(CreateTweet(db, current, text, mediaIds, now).0)
  {
    var r := CreateTweet(db, current, text, mediaIds, now).0;
    assert TweetsWellFormed(r);
    assert LikesWellFormed(r);
    assert ImagesWellFormed(r) by {
      forall id | id in r.images && r.images[id].tweet.Some?
        ensures r.images[id].tweet.value in r.tweets
      {
        if r.images[id] != db.images[id] {
          assert r.images[id].tweet == Some(db.nextTweet);
        }
      }
    }
  }

  /**
   * The new tweet's images are exactly the listed images that exist, and
   * every other tweet keeps only the images that were not listed: an image
   * already attached elsewhere moves to the new tweet.
   */
  lemma CreateTweetClaimsListedImages(db: Tables, current: UserId, text: string, mediaIds: Option<seq<ImageId>>, now: int)
    requires Valid(db)
    ensures
      var (after, id) := CreateTweet(db, current, text, mediaIds, now);
      && (forall img :: BoundTo(after.images, img, id)
            <==> img in db.images && mediaIds.Some? && img in mediaIds.value)
      && (forall img, t :: t != id ==>
            (BoundTo(after.images, img, t) <==> BoundTo(db.images, img, t) && !(mediaIds.Some? && img in mediaIds.value)))
  {
    var (after, id) := CreateTweet(db, current, text, mediaIds, now);
    forall img | img in db.images
      ensures db.images[img].tweet != Some(id)
    {
      if db.images[img].tweet.Some? {
        assert db.images[img].tweet.value in db.tweets;
      }
    }
  }

  /**
   * `delete_tweet`: 404 for an unknown tweet, 423 for someone else's; the
   * author's tweet goes with its likes and its images (delete-orphan).
   */
  function DeleteTweet(db: Tables, user: UserId, id: TweetId): (r: Result<Tables>)
    ensures id !in db.tweets ==> r == Err(NotFound)
    ensures id in db.tweets && db.tweets[id].owner != user ==> r == Err(Locked)
    ensures r.Ok? <==> id in db.tweets && db.tweets[id].owner == user
    ensures r.Ok? ==> r.value.tweets.Keys == db.tweets.Keys - {id}
    ensures r.Ok? ==> forall t :: t in r.value.tweets ==> r.value.tweets[t] == db.tweets[t]
    ensures r.Ok? ==> forall l :: l in r.value.likes <==> l in db.likes && l.tweet != id
    ensures r.Ok? ==> forall img :: img in r.value.images <==> img in db.images && !BoundTo(db.images, img, id)
    ensures r.Ok? ==> forall img :: img in r.value.images ==> r.value.images[img] == db.images[img]
    ensures r.Ok? ==> r.value.users == db.users && r.value.follows == db.follows
    ensures r.Ok? ==> r.value.nextTweet == db.nextTweet && r.value.nextLike == db.nextLike && r.value.nextImage == db.nextImage
  {
    match GetTweet(db, id)
    case None => Err(NotFound)
    case Some(tweet) =>
      if tweet.owner != user then Err(Locked)
      else
        Ok(db.(tweets := db.tweets - {id},
               likes := (set l | l in db.likes && l.tweet != id),
               images := (map img | img in db.images && !BoundTo(db.images, img, id) :: db.images[img])))
  }

  /** A deletion keeps the invariant: no like or image is left pointing at the tweet. */
  lemma DeleteTweetKeepsValid(db: Tables, user: UserId, id: TweetId)
    requires Valid(db)
    requires DeleteTweet(db, user, id).Ok?
    ensures Valid(DeleteTweet(db, user, id).value)
  {
    var r := DeleteTweet(db, user, id).value;
    assert LikesWellFormed(r);
    assert ImagesWellFormed(r) by {
      forall img | img in r.images && r.images[img].tweet.Some?
        ensures r.images[img].tweet.value in r.tweets
      {
        assert !BoundTo(db.images, img, id);
      }
    }
  }

  /** The author can always delete a tweet they just posted without images; only the id counter has moved on. */
  lemma CreateThenDelete(db: Tables, current: UserId, text: string, now: int)
    requires Valid(db)
    ensures
      var (after, id) := CreateTweet(db, current, text, None, now);
      DeleteTweet(after, current, id) == Ok(db.(nextTweet := db.nextTweet + 1))
  {
    var (after, id) := CreateTweet(db, current, text, None, now);
    var r := DeleteTweet(after, current, id).value;
    assert r.tweets == db.tweets;
    assert r.likes == db.likes by {
      forall l | l in db.likes ensures l.tweet != id {
        assert l.tweet in db.tweets;
      }
    }
    assert r.images == db.images by {
      forall img | img in db.images ensures !BoundTo(db.images, img, id) {
        if db.images[img].tweet.Some? {
          assert db.images[img].tweet.value in db.tweets;
        }
      }
    }
  }

  /** Someone else's tweet cannot be deleted, and the tables stay as they are. */
  lemma DeleteOthersTweetChangesNothing(db: Tables, user: UserId, id: TweetId)
    requires id in db.tweets && db.tweets[id].owner != user
    ensures Commit(db, DeleteTweet(db, user, id)) == db
  {
  }
}
